=== FILE: README.md ===
# wsd-proxy request distribution, modelled in Dafny

wsd-proxy fetches one piece of information per input item by sending HTTP
requests through a pool of proxies. It writes one output line per item that
comes back with status 200. This project models the core of `src/main.py`:

- `Proxy` and its `fetch_single`, which classifies a reply as 200, 503 or
  anything else.
- `ProxyManager.__init__` and `active_proxies`.
- The `distribute_requests` loop, round by round.
- The line reading that feeds it.
- The `MockProxy` of `tests/test_main.py`, which the tests install in place of
  real proxies.

The model then proves what the loop guarantees and what it does not.

Modules, one per concern of the source:

- `Text`: `str.strip()` and the strip-and-drop-blank-lines reading of the
  item file and the address file.
- `Upstream`: the HTTP world as a deterministic oracle. Every proxy address
  names an endpoint with a cyclic script of replies. A `Session` threads the
  endpoints' positions through a run.
- `Proxies`: the `Proxy` record, `block_proxy`, and `fetch_single` as the pure
  function `Fetch`, with the retirement threshold of 10.
- `Mock`: `MockProxy` modelled from its own code, and shown to take exactly
  the step that `Fetch` takes against an endpoint scripted with the mock's
  codes, for one item and for a whole chunk.
- `Manager`: the pool, the active snapshot and the split into chunks of 30.
  It also holds task creation, running the tasks in creation order, the
  requeue loop `for task, input_string in zip(tasks, chunk)`, one round
  (`Round`), and the loop (`Loop`, bounded by fuel).
- `Guarantees`: properties of whole runs.
- `Scenarios`: the pytest scenarios, restated as lemmas about the model, each
  about one concrete job (all but `test_validate_input_files`, whose subject
  is left out).

## Where the code falls short of what the tool is meant to do

A job is meant to behave as follows:

- every input item is recorded exactly once;
- an item whose request gets a 503 goes back to the front of the queue and
  is retried, through any proxy that is still active;
- so with one proxy always answering 503 and another always answering 200,
  every item ends up recorded through the healthy proxy.

The code does not do this, and the model follows the code:

- The requeue loop zips the results of ALL tasks of the round with the chunk
  of the LAST proxy in the snapshot (`chunk` is the loop variable left over
  from lines 169-173). So only the first |last chunk| results are looked at,
  and each is paired with the item at the same position of the last chunk,
  which is not necessarily the item its task fetched.
- `appendleft` inside the loop puts the requeued items back in reverse order
  (`Manager.RequeuePushesFailures`).
- An exception aborts the job only if it is among those first |last chunk|
  results. Exceptions of the other tasks are swallowed
  (`Manager.RequeueRaisesIffPairedException`).
- An item is marked attempted before its request is sent and never unmarked.
  A requeued item is therefore skipped as already attempted in every later
  round, and its task returns False. With one active proxy that proxy's chunk
  is also the last chunk, so the item is requeued again each time. The queue
  never empties, so the job never finishes: it runs for ever unless another
  task's exception or the proxy's retirement stops it with an error. When
  every queued item is already attempted and there are at most 30 of them,
  nothing can stop it (`Guarantees.SkippedItemsCirculate`,
  `Scenarios.UnavailableItemCirculates`). A fresh item behind a skipped one
  can still end the job with its exception
  (`Guarantees.SkippedItemDoesNotStopErrors`).
- With two or more active proxies, when the last chunk is longer than the
  skipped item's position in the queue, the skipped item's False is paired
  with the item at that position of the last chunk. That other item goes back
  on the queue, whatever its own task did, and may already be recorded; the
  skipped item is dropped (`Guarantees.RequeuedItemIsSwapped`). Otherwise its
  False is not looked at, and it is simply dropped.
- A second copy of a duplicated input line is skipped once the first copy is
  attempted. Whether the copy goes back on the queue depends on the result at
  its position in the last chunk, not on its own result.
- When the queue is too short to reach the last proxy of the snapshot, that
  chunk is empty. Nothing is paired, so failed items are dropped and the job
  can finish with items missing from the output
  (`Guarantees.FailuresOfEarlierProxiesAreDropped`). With proxy 1 answering
  503 and proxy 2 answering 200, a one-item job finishes with an empty output
  (`Scenarios.FailedItemIsDropped`), where the retry through the healthy
  proxy described above was meant to happen.

What does hold is proved:

- at most one record per item, only for input items
  (`Guarantees.AtMostOnce`);
- with every endpoint answering 200 and distinct items, the job finishes and
  records every item in queue order (`Guarantees.AlwaysOkRecordsEveryItem`).

## Model

| member | source | states |
|---|---|---|
| `Text.Strip` | src/main.py:204-206 | The stripped line is a slice of the line from which only white space (Python's `isspace` set) was cut at both ends, and it neither starts nor ends with white space |
| `Text.StripIdempotent` | src/main.py:204-206 | Stripping a stripped line changes nothing |
| `Text.ParseLines` | src/main.py:204-206 | The items read from a file are non-empty, stripped, at most one per line, and a string is an item exactly when it is the non-empty strip of some line |
| `Text.ParseLinesAppend` | src/main.py:255 | Reading lines `a` then `b` gives the items of `a` followed by the items of `b`, so file order is kept |
| `Text.ParseLinesIdempotent` | src/main.py:255 | Reading the already read items again gives them back unchanged |
| `Upstream.Send` | src/main.py:91 | A GET through the shared session moves the addressed endpoint one reply on in its script, back to the first after the last, so the n-th request gets the n-th scripted reply. It leaves every other endpoint, every script and the set of addresses alone, and an address with no endpoint changes nothing |
| `Proxies.NewProxy` | src/main.py:40-43 | A new proxy has the given address, is active and has no 503 on record |
| `Proxies.Block` | src/main.py:55-62 | `block_proxy` makes the proxy inactive and keeps its address and retry count |
| `Proxies.Fetch` | src/main.py:64-115 | An attempted item is skipped with False and nothing changes. Otherwise the item is marked attempted and one request is sent. A 200 returns True, writes exactly one record with the reply's information and resets the count. A 503 returns False, counts one more retry and leaves the proxy active only while the count is under 10. Any other status, or a transport failure, raises and writes nothing. A retired proxy never comes back |
| `Proxies.RetiredAfterThreshold` | src/main.py:99-108 | A proxy whose endpoint only answers 503, given n fresh items, returns False n times, writes nothing, ends with its count raised by n, and is inactive exactly when that count reached 10 |
| `Mock.NewMock` | tests/test_main.py:15-22 | A new mock is active with count 0 at position 0, and an empty code list becomes `[200]` |
| `Mock.BlockMock` | tests/test_main.py:28-29 | Blocking a mock makes it inactive and keeps its address, count, codes and position, just as `Block` does to the corresponding proxy |
| `Mock.MockFetch` | tests/test_main.py:31-64 | The mock skips attempted items. Otherwise it marks the item, advances cyclically through its codes, and on 200 records `mock_data`, resets the count and keeps its active flag. On 503 it counts a retry and retires at 10. Any other code raises `UnexpectedResponseCode` with that code and keeps the count and the flag |
| `Mock.MockAgreesWithProxy` | tests/test_main.py:31-64 | A mock and a real proxy whose endpoint replays the mock's codes from the mock's position take identical steps: same proxy state, attempted set, records and outcome, and the endpoint ends at the mock's new position |
| `Mock.MockServesLikeProxy` | tests/test_main.py:31-64 | A mock serving a list of items and the real proxy serving it through the scripted endpoint give the same proxy states, attempted sets, records and outcomes; the endpoint ends at the mock's position and every other endpoint is left alone |
| `Manager.NewPool` | src/main.py:127-137 | The pool has one fresh proxy per distinct address, no address twice, ordered by each address's first occurrence, and covers exactly the listed addresses |
| `Manager.ActiveSlots` | src/main.py:139-147 | The snapshot lists, in pool order and without repetition, exactly the positions of the active proxies |
| `Manager.SameActivitySameSlots` | src/main.py:139-147 | Two pools with the same active flags have the same snapshot |
| `Manager.PartitionChunk` | src/main.py:169-173 | The k-th proxy of the snapshot gets the queue slice from min(30k, n) to min(30(k+1), n), where n is the queue length |
| `Manager.PartitionRest` | src/main.py:169-173 | What stays on the queue after the snapshot's proxies took their chunks is the queue from position min(30·proxies, length) on |
| `Manager.PartitionCoversQueue` | src/main.py:169-173 | The chunks in snapshot order, followed by what is left, are the queue again |
| `Manager.TasksOfChunk` | src/main.py:175-182 | Task creation puts chunk k's tasks where chunk k starts among all the round's items, and they are exactly chunk k's items, in order, each bound to the k-th proxy of the snapshot |
| `Manager.RoundTaskBinding` | src/main.py:169-182 | In a round, the tasks for the queue stretch the k-th proxy took are that stretch's items bound to that proxy: each proxy fetches its own chunk |
| `Manager.RoundTaskSlot` | src/main.py:169-182 | Each task at a queue position the k-th proxy took fetches that position's item through that proxy's pool slot |
| `Manager.ExecuteChunkIsFetchEach` | src/main.py:175-185 | Running one proxy's chunk as tasks takes the same steps as that proxy fetching the items one after the other: same outcomes, proxy state, session, attempted set and records, with every other proxy untouched |
| `Manager.ExecuteRecords` | src/main.py:185 | The tasks of a round only append to the output, and every new record is for a task's item that was not attempted before, with no item recorded twice |
| `Manager.ExecuteMarksAttempted` | src/main.py:185 | After a round's tasks, the attempted set is the old one plus every task's item |
| `Manager.ExecuteKeepsPool` | src/main.py:185 | A round's tasks keep every proxy's address and never reactivate a proxy |
| `Manager.ExecuteKeepsSession` | src/main.py:185 | A round's tasks keep every endpoint's script, and no task raises `NoAvailableProxiesError` |
| `Manager.RequeuePushesFailures` | src/main.py:187-192 | Without an exception among the paired results, the requeue puts the paired items with result False back at the front of the queue, in reverse order |
| `Manager.RequeueReraisesFirst` | src/main.py:187-192 | The first exception among the paired results is the one raised |
| `Manager.RequeueRaisesIffPairedException` | src/main.py:187-192 | The requeue raises exactly when one of the first min(results, chunk) results is an exception |
| `Manager.RequeueGrowth` | src/main.py:187-192 | The requeue adds at most one item per chunk item, and only items of the chunk |
| `Manager.RequeueErrorFromResults` | src/main.py:187-192 | A raised error is the error of one of the round's task results |
| `Manager.ChunkShape` | src/main.py:169-187 | The last chunk is the slice between the last two offsets, what is left starts at the last offset, the tasks cover the queue up to it, and there is one result per task |
| `Manager.Round` | src/main.py:162-192 | With no active proxy a round raises `NoAvailableProxiesError` and writes nothing more; a round that completes never lengthens the queue |
| `Manager.RoundRequeue` | src/main.py:162-192 | A round aborts exactly when one of the first |last chunk| results is an exception. Otherwise the next queue is the last chunk's False-paired items, reversed, followed by the items no proxy took |
| `Manager.RoundAbortFrame` | src/main.py:162-192 | An aborted round has only appended to the output, and aborts with `NoAvailableProxiesError` only when the snapshot is empty |
| `Manager.RoundFrame` | src/main.py:162-192 | A completed round marks exactly the taken items as attempted, keeps addresses and scripts, reactivates no proxy and only appends to the output |
| `Manager.RoundQueueFromQueue` | src/main.py:162-192 | A completed round never puts an item on the queue that was not on it before |
| `Manager.Loop` | src/main.py:160-192 | An empty queue ends the job at once, and no active proxy ends it with `NoAvailableProxiesError`. A finished job has an empty queue, and the output is only ever appended to |
| `Manager.DistributeRequests` | src/main.py:149-165 | A job starts with nothing attempted: an empty queue finishes at once with the pool, session and output untouched and the attempted set empty. A non-empty queue with no active proxy fails with `NoAvailableProxiesError` before writing anything, and the output is only ever appended to |
| `Guarantees.RoundKeepsInvariant` | src/main.py:162-192 | A round keeps the job invariant: queue and attempted items come from the input, and the records since the start are distinct and attempted. An aborted round leaves its records distinct and from the input |
| `Guarantees.LoopRecordsAtMostOnce` | src/main.py:160-192 | However the loop stops (finished, aborted, or still running), the records since the start are distinct input items |
| `Guarantees.AtMostOnce` | src/main.py:149-192 | A job only appends to the output, and records each item at most once and only items of its queue, whatever the endpoints answer |
| `Guarantees.FetchOk` | src/main.py:88-100 | A fresh item through an endpoint answering 200 returns True, writes one record for that item, keeps the proxy's active flag and marks the item |
| `Guarantees.ExecuteAllOk` | src/main.py:185 | When all endpoints answer 200 and the items are distinct and fresh, every task returns True, the records are the task items in task order, and no active flag changes |
| `Guarantees.RoundAllOk` | src/main.py:162-192 | Under the same conditions a round completes. It records the items taken off the front of the queue, in order, and leaves the remaining suffix as the queue |
| `Guarantees.AlwaysOkDrainsQueue` | src/main.py:160-192 | Under the same conditions the loop finishes within |queue| rounds, and the records appended are the queue, in order |
| `Guarantees.AlwaysOkRecordsEveryItem` | src/main.py:149-192 | A job of distinct items over endpoints answering 200 finishes, and records exactly its items, in order |
| `Guarantees.AlwaysOkOneRound` | src/main.py:162-192 | Under the same conditions, when the snapshot's chunks of 30 cover the whole queue, the job finishes after one round, with every item recorded in queue order |
| `Guarantees.ExecuteAllSkipped` | src/main.py:85-86 | Tasks whose items were all attempted before each return False and change nothing |
| `Guarantees.SoleProxyTakesQueue` | src/main.py:169-182 | With one active proxy and at most 30 items, that proxy takes the whole queue in order and nothing is left |
| `Guarantees.SoleProxyBatch` | src/main.py:169-185 | With one active proxy and at most 30 items, the round's tasks are that proxy fetching the queue's items one after the other |
| `Guarantees.SoleUnavailableProxyRound` | src/main.py:101-108 | Retirement inside a round: one active proxy whose endpoint only answers 503, given at most 30 distinct fresh items, returns False for each. The round completes, puts the queue back reversed, writes nothing and leaves the other proxies alone. It raises the proxy's count by the number of items, and leaves the proxy active exactly while that count stays under 10 |
| `Guarantees.RoundOfSkippedItems` | src/main.py:162-192 | With one active proxy and at most 30 already-attempted items, a round changes nothing but the order of the queue, which comes back reversed |
| `Guarantees.SkippedItemsCycle` | src/main.py:162-192 | In that situation two rounds give back exactly the state the job started from |
| `Guarantees.SkippedItemsCirculate` | src/main.py:160-192 | In that situation the loop never finishes, however many rounds it is given, and writes nothing and touches no proxy |
| `Guarantees.LoopKeepsQueueWhileCirculating` | src/main.py:160-192 | A single already-attempted item with one active proxy keeps the job in the same state for ever |
| `Guarantees.FailuresOfEarlierProxiesAreDropped` | src/main.py:169-192 | When the queue does not reach the last proxy of the snapshot, the round completes with an empty queue whatever the tasks returned or raised |
| `Guarantees.RequeuedItemIsSwapped` | src/main.py:169-192 | With two or more active proxies and a queue one item longer than the first proxies' chunks, an already-attempted first item returns False. That False is paired with the final item, so the round completes with only the final item on the queue, attempted by then. The distinct first item is dropped |
| `Guarantees.SkippedItemDoesNotStopErrors` | src/main.py:185-189 | With one active proxy and a queue of an already-attempted item followed by a fresh one whose request gets a status other than 200 or 503, the round fails with `UnexpectedResponseCode` of that status and writes nothing: a circulating item does not keep an exception from ending the job |
| `Guarantees.FirstTaskSkipped` | src/main.py:85-86 | The first task of a round fetches the head of the queue, so a head attempted before gives the round a False first result |
| `Guarantees.TakenItemAttempted` | src/main.py:85-88 | Every item some proxy took in a completed round is attempted afterwards |
| `Scenarios.SoleMockBatch` | tests/test_main.py:75-77 | With the manager's pool replaced by one active mock, a round's results, records and proxy state are those of the mock fetching the queue's items in order |
| `Scenarios.EmptyInputWritesNothing` | tests/test_main.py:179-197 | An empty queue finishes at once with no output |
| `Scenarios.NoActiveProxies` | tests/test_main.py:145-163 | With the only proxy blocked, the job fails with `NoAvailableProxiesError` before writing anything |
| `Scenarios.OkMockRecordsEveryItem` | tests/test_main.py:74-80 | One mock answering only 200 records every item of a queue of distinct items, in order |
| `Scenarios.RegularRequest` | tests/test_main.py:67-82 | One mock answering 200: the single item is recorded once and the job finishes |
| `Scenarios.ReadWriteFromFiles` | tests/test_main.py:126-142 | One mock answering 200, 200, 200: three items give three records, in input order, and the job finishes after a single round |
| `Scenarios.UnexpectedCodeAbortsJob` | tests/test_main.py:105-123 | One mock answering 200, 400, 200: the job fails with `UnexpectedResponseCode(400)`, and the records of items 1 and 3, written before the failure surfaced, remain |
| `Scenarios.BlockedProxyIsPassedOver` | tests/test_main.py:85-102 | With proxy 1 blocked and proxy 2 answering 200, the item is recorded once and the job finishes |
| `Scenarios.UnavailableItemCirculates` | src/main.py:160-192 | One proxy answering 503 and one item: the job never finishes, writes nothing, and the proxy stops at one retry and is never retired |
| `Scenarios.FailedItemIsDropped` | src/main.py:169-192 | Proxy 1 answering 503 and proxy 2 answering 200, one item: the job finishes with an empty output |

## Left out

- HTTP, URLs and JSON: a reply is a status with an `information` string, or a transport failure. A 200 whose body lacks `information` (a `KeyError` in the source) is not modelled.
- Files: reading the input and address files, splitting them into lines, and the output line format `"<item> <information>\n"` are not modelled. The output is the sequence of records, and reading starts from the list of lines.
- `validate_input_files`, `validate_output`, `main`, the command line, logging, and `collect_information`'s session handling are left out: they are I/O around the core.
- `utils/generate_test_data.py` is test-data I/O and is not part of this model.
- Concurrency: `asyncio.gather` is modelled as running the round's tasks to completion one after the other, in creation order. Orders in which tasks complete differently are not modelled, and neither is the `Semaphore(30)` that the source creates once and shares among all proxies, since it only limits how many requests are in flight.
- Manager.Loop: bounded by fuel. The source loop has no bound, and the model shows it need not end, so no termination is claimed beyond the all-200 case.
- Mock.MockAgreesWithProxy: an endpoint's replies are a script per address, so an answer cannot depend on the item. This covers every mock of the tests, whose codes do not depend on the item either.
- Proxies.Fetch: a proxy retired in the middle of a round still serves the rest of its chunk that round. This matches the source, where `fetch_single` does not check `active`. Ordering effects of retirement within a round are only those of the creation order above.
- Scenarios.SoleMockBatch: the agreement between mocks and scripted proxies is carried to whole rounds only for a pool of one mock, with at most 30 items. The two-proxy scenarios are stated directly on proxies and scripted endpoints.

=== FILE: guarantees.dfy ===
/**
 What `distribute_requests` does and does not guarantee, stated about the
 model of `Manager`. The positive guarantees: an item is recorded at most once
 per job, and only items of the input are recorded; when every endpoint always
 answers 200 and the items are distinct, the queue drains and every item is
 recorded in queue order. The negative ones, which follow from the requeue
 step as written: an item that is requeued after its attempt is skipped in
 every later round. With one active proxy it is requeued each time, so the
 queue never empties and the job runs for ever unless another task's
 exception or the proxy's retirement stops it with an error. With several
 proxies, when the last chunk reaches the skipped item's position, its False
 is paired with the last chunk's item there, which goes back instead;
 otherwise its False is not looked at. Either way the skipped item is dropped.
 When the last proxy of a snapshot gets no items, failed items and
 exceptions of the round are lost.
 */
module Guarantees {
  import opened Upstream
  import opened Proxies
  import opened Manager

  // ---------------------------------------------------------------------------
  // At most once

  /** The facts a job keeps between rounds about the records written since
      it started at output length `base`. */
  predicate JobInvariant(st: State, inputs: set<string>, base: nat) {
    && base <= |st.output|
    && (forall x :: x in st.queue ==> x in inputs)
    && st.attempted <= inputs
    && Distinct(RecordItems(st.output[base..]))
    && (forall k :: base <= k < |st.output| ==> st.output[k].item in st.attempted)
  }

  lemma DistinctExtend(before: seq<Record>, after: seq<Record>, base: nat, attempted: set<string>)
    requires base <= |before| && before <= after
    requires Distinct(RecordItems(before[base..]))
    requires forall k :: base <= k < |before| ==> before[k].item in attempted
    requires forall k :: |before| <= k < |after| ==> after[k].item !in attempted
    requires Distinct(RecordItems(after[|before|..]))
    ensures Distinct(RecordItems(after[base..]))
  {
    var all := RecordItems(after[base..]);
    forall i, j | 0 <= i < j < |all|
      ensures all[i] != all[j]
    {
      assert all[i] == after[base + i].item && all[j] == after[base + j].item;
      if base + j < |before| {
        assert RecordItems(before[base..])[i] == all[i];
        assert RecordItems(before[base..])[j] == all[j];
      } else if base + i >= |before| {
        assert RecordItems(after[|before|..])[base + i - |before|] == all[i];
        assert RecordItems(after[|before|..])[base + j - |before|] == all[j];
      } else {
        assert after[base + i] == before[base + i];
      }
    }
  }

  /** A round that continues carries on from the state its tasks leave. */
  lemma RoundIsBatch(st: State)
    requires st.queue != [] && ActiveSlots(st.pool) != []
    ensures Round(st).Continue? ==>
              var e := Batch(st);
              Round(st).next == State(Round(st).next.queue, e.pool, e.session, e.attempted, e.output)
    ensures Round(st).Abort? ==> Round(st).output == Batch(st).output
  {
  }

  /** A round keeps the job invariant, and an aborted round leaves the
      records it wrote distinct and drawn from the input. */
  lemma RoundKeepsInvariant(st: State, inputs: set<string>, base: nat)
    requires st.queue != [] && JobInvariant(st, inputs, base)
    ensures Round(st).Continue? ==> JobInvariant(Round(st).next, inputs, base)
    ensures Round(st).Abort? ==> RecordedOnce(Round(st).output, inputs, base)
  {
    RoundAbortFrame(st);
    RoundFrame(st);
    RoundQueueFromQueue(st);
    if ActiveSlots(st.pool) != [] {
      var tasks := RoundTasks(st);
      var e := Batch(st);
      var n := |ActiveSlots(st.pool)|;
      ChunkShape(st);
      ExecuteRecords(tasks, st.pool, st.session, st.attempted, st.output);
      ExecuteMarksAttempted(tasks, st.pool, st.session, st.attempted, st.output);
      DistinctExtend(st.output, e.output, base, st.attempted);
      forall x | x in Items(tasks)
        ensures x in st.queue
      {
        assert st.queue[0..Offset(st.queue, n)] == st.queue[..Offset(st.queue, n)];
        SliceMember(st.queue, 0, Offset(st.queue, n), x);
      }
      assert e.attempted <= inputs;
      assert forall k :: base <= k < |e.output| ==> e.output[k].item in e.attempted by {
        forall k | base <= k < |e.output|
          ensures e.output[k].item in e.attempted
        {
          if k < |st.output| {
            assert e.output[k] == st.output[k];
          }
        }
      }
      if Round(st).Continue? {
        assert Round(st).next.output == e.output && Round(st).next.attempted == e.attempted;
      } else {
        assert Round(st).output == e.output;
      }
    }
  }

  /** The records from `base` on are distinct and drawn from `inputs`. */
  predicate RecordedOnce(out: seq<Record>, inputs: set<string>, base: nat) {
    && base <= |out|
    && Distinct(RecordItems(out[base..]))
    && (forall k :: base <= k < |out| ==> out[k].item in inputs)
  }

  /** One turn of the loop: an aborted round ends the run with its error and
      output, a completed one hands its state to the next turn. */
  lemma LoopUnfolds(st: State, fuel: nat)
    requires st.queue != [] && fuel > 0
    ensures Round(st).Abort? ==> Loop(st, fuel) == Failed(Round(st).error, Round(st).output)
    ensures Round(st).Continue? ==> Loop(st, fuel) == Loop(Round(st).next, fuel - 1)
  {
  }

  /** The loop keeps the invariant round after round, however it stops. */
  lemma {:induction false} LoopRecordsAtMostOnce(st: State, fuel: nat, inputs: set<string>, base: nat)
    requires JobInvariant(st, inputs, base)
    ensures RecordedOnce(Written(Loop(st, fuel)), inputs, base)
    decreases fuel, 1
  {
    if st.queue == [] || fuel == 0 {
      assert Written(Loop(st, fuel)) == st.output;
    } else {
      RoundKeepsInvariant(st, inputs, base);
      LoopUnfolds(st, fuel);
      if Round(st).Continue? {
        LaterRoundsRecordAtMostOnce(st, fuel, Round(st).next, inputs, base);
      }
    }
  }

  /** After a completed round that kept the invariant, the rest of the run
      keeps it too. */
  lemma {:induction false} LaterRoundsRecordAtMostOnce(st: State, fuel: nat, next: State, inputs: set<string>, base: nat)
    requires st.queue != [] && fuel > 0
    requires Round(st) == Continue(next)
    requires JobInvariant(next, inputs, base)
    ensures RecordedOnce(Written(Loop(st, fuel)), inputs, base)
    decreases fuel, 0
  {
    LoopRecordsAtMostOnce(next, fuel - 1, inputs, base);
  }

  /** No double counting: whatever the endpoints answer, a job records each
      item at most once, and only items of its input queue. */
  lemma AtMostOnce(queue: seq<string>, pool: seq<Proxy>, session: Session, output: seq<Record>, fuel: nat)
    ensures var out := Written(DistributeRequests(queue, pool, session, output, fuel));
            && output <= out
            && Distinct(RecordItems(out[|output|..]))
            && (forall k :: |output| <= k < |out| ==> out[k].item in queue)
  {
    var st := State(queue, pool, session, {}, output);
    assert RecordItems(output[|output|..]) == [];
    LoopRecordsAtMostOnce(st, fuel, Elems(queue), |output|);
  }

  // ---------------------------------------------------------------------------
  // Draining when every request succeeds

  predicate InSession(pool: seq<Proxy>, session: Session) {
    forall i :: 0 <= i < |pool| ==> pool[i].address in session
  }

  /** One fetch of a fresh item through an address whose endpoint answers
      200 succeeds and leaves the session answering 200. */
  lemma FetchOk(p: Proxy, session: Session, item: string, attempted: set<string>)
    requires AlwaysOk(session) && p.address in session
    requires item !in attempted
    ensures var f := Fetch(p, session, item, attempted);
            && f.outcome == Returned(true)
            && |f.written| == 1 && f.written[0].item == item
            && f.proxy.active == p.active
            && f.attempted == attempted + {item}
            && AlwaysOk(f.session) && f.session.Keys == session.Keys
  {
    assert NextReply(session, p.address).status == 200;
  }

  /** Every task of a round succeeds when every endpoint answers 200 and the
      items are distinct and fresh: each item is recorded once, in task order,
      and no proxy changes its active flag. */
  lemma {:induction false} ExecuteAllOk(tasks: seq<Task>, pool: seq<Proxy>, session: Session, attempted: set<string>, output: seq<Record>)
    requires SlotsIn(tasks, |pool|)
    requires AlwaysOk(session) && InSession(pool, session)
    requires Distinct(Items(tasks))
    requires forall k :: 0 <= k < |tasks| ==> tasks[k].item !in attempted
    ensures var e := Execute(tasks, pool, session, attempted, output);
            && (forall k :: 0 <= k < |tasks| ==> e.results[k] == Returned(true))
            && RecordItems(e.output) == RecordItems(output) + Items(tasks)
            && |e.pool| == |pool|
            && (forall i :: 0 <= i < |pool| ==> e.pool[i].active == pool[i].active)
    decreases |tasks|
  {
    if tasks != [] {
      var t := tasks[0];
      var f := Fetch(pool[t.slot], session, t.item, attempted);
      var after := pool[t.slot := f.proxy];
      AllOkFirstTask(tasks, pool, session, attempted);
      ExecuteAllOk(tasks[1..], after, f.session, f.attempted, output + f.written);
      var rest := Execute(tasks[1..], after, f.session, f.attempted, output + f.written);
      var e := Execute(tasks, pool, session, attempted, output);
      assert e == Executed([f.outcome] + rest.results, rest.pool, rest.session, rest.attempted, rest.output);
      forall k | 0 <= k < |tasks|
        ensures e.results[k] == Returned(true)
      {
        if k > 0 {
          assert e.results[k] == rest.results[k - 1];
        }
      }
      forall i | 0 <= i < |pool|
        ensures e.pool[i].active == pool[i].active
      {
        assert rest.pool[i].active == after[i].active;
      }
      assert RecordItems(output + f.written) == RecordItems(output) + [t.item];
      assert Items(tasks) == [t.item] + Items(tasks[1..]);
      AppendAssociates(RecordItems(output), [t.item], Items(tasks[1..]));
    }
  }

  /** The first task of an all-200 run succeeds and leaves the rest of the
      run in the same situation. */
  lemma AllOkFirstTask(tasks: seq<Task>, pool: seq<Proxy>, session: Session, attempted: set<string>)
    requires tasks != [] && SlotsIn(tasks, |pool|)
    requires AlwaysOk(session) && InSession(pool, session)
    requires Distinct(Items(tasks))
    requires forall k :: 0 <= k < |tasks| ==> tasks[k].item !in attempted
    ensures var t := tasks[0];
            var f := Fetch(pool[t.slot], session, t.item, attempted);
            var after := pool[t.slot := f.proxy];
            && f.outcome == Returned(true)
            && |f.written| == 1 && f.written[0].item == t.item
            && after[t.slot].active == pool[t.slot].active
            && AlwaysOk(f.session) && InSession(after, f.session)
            && Items(tasks) == [t.item] + Items(tasks[1..])
            && Distinct(Items(tasks[1..]))
            && (forall k :: 0 <= k < |tasks| - 1 ==> tasks[1..][k].item !in f.attempted)
  {
    var t := tasks[0];
    var p := pool[t.slot];
    FetchOk(p, session, t.item, attempted);
    var f := Fetch(p, session, t.item, attempted);
    var after := pool[t.slot := f.proxy];
    forall i | 0 <= i < |after|
      ensures after[i].address in f.session
    {
      assert after[i].address == pool[i].address;
    }
    assert Items(tasks[1..]) == Items(tasks)[1..];
    forall k | 0 <= k < |tasks| - 1
      ensures tasks[1..][k].item !in f.attempted
    {
      assert Items(tasks)[k + 1] == tasks[1..][k].item;
      assert Items(tasks)[0] == t.item;
    }
  }

  lemma {:induction false} NoFailuresNothingPaired(results: seq<Outcome>, chunk: seq<string>)
    requires forall k :: 0 <= k < |results| ==> results[k] == Returned(true)
    ensures PairedFailures(results, chunk) == []
    decreases |chunk|
  {
    if results != [] && chunk != [] {
      assert forall k :: 0 <= k < |results| - 1 ==> results[1..][k] == results[k + 1];
      NoFailuresNothingPaired(results[1..], chunk[1..]);
    }
  }

  /** The items a round takes are the front of the queue, so they are
      distinct and fresh when the queue's items are. */
  lemma RoundTasksFresh(st: State)
    requires st.queue != [] && ActiveSlots(st.pool) != []
    requires Distinct(st.queue)
    requires forall k :: 0 <= k < |st.queue| ==> st.queue[k] !in st.attempted
    ensures var tasks := RoundTasks(st);
            && Items(tasks) == st.queue[..Taken(st.queue, |ActiveSlots(st.pool)|)]
            && 0 < Taken(st.queue, |ActiveSlots(st.pool)|)
            && Distinct(Items(tasks))
            && (forall k :: 0 <= k < |tasks| ==> tasks[k].item !in st.attempted)
  {
    var n := |ActiveSlots(st.pool)|;
    var tasks := RoundTasks(st);
    ChunkShape(st);
    assert Span(n) >= 1;
    forall k | 0 <= k < |tasks|
      ensures tasks[k].item !in st.attempted
    {
      assert tasks[k].item == Items(tasks)[k] == st.queue[k];
    }
  }

  /** The tasks of a round whose endpoints all answer 200 on distinct fresh
      items: all succeed, each writes its item's record, and the proxies, the
      addresses and the answering endpoints stay as they were. */
  lemma AllOkBatch(st: State)
    requires st.queue != [] && ActiveSlots(st.pool) != []
    requires AlwaysOk(st.session) && InSession(st.pool, st.session)
    requires Distinct(st.queue)
    requires forall k :: 0 <= k < |st.queue| ==> st.queue[k] !in st.attempted
    ensures var e := Batch(st);
            var taken := Taken(st.queue, |ActiveSlots(st.pool)|);
            && 0 < taken
            && (forall k :: 0 <= k < |e.results| ==> e.results[k] == Returned(true))
            && RecordItems(e.output) == RecordItems(st.output) + st.queue[..taken]
            && ActiveSlots(e.pool) == ActiveSlots(st.pool)
            && AlwaysOk(e.session) && InSession(e.pool, e.session)
  {
    var tasks := RoundTasks(st);
    var e := Batch(st);
    RoundTasksFresh(st);
    ExecuteAllOk(tasks, st.pool, st.session, st.attempted, st.output);
    ExecuteKeepsPool(tasks, st.pool, st.session, st.attempted, st.output);
    ExecuteKeepsSession(tasks, st.pool, st.session, st.attempted, st.output);
    SameActivitySameSlots(e.pool, st.pool);
    forall i | 0 <= i < |e.pool|
      ensures e.pool[i].address in e.session
    {
      assert Addresses(e.pool)[i] == Addresses(st.pool)[i];
    }
  }

  /** With every endpoint answering 200, a round records the items the
      proxies take, in queue order, and leaves the rest of the queue. */
  lemma RoundAllOk(st: State)
    requires st.queue != [] && ActiveSlots(st.pool) != []
    requires AlwaysOk(st.session) && InSession(st.pool, st.session)
    requires Distinct(st.queue)
    requires forall k :: 0 <= k < |st.queue| ==> st.queue[k] !in st.attempted
    ensures Round(st).Continue?
    ensures var next := Round(st).next;
            var taken := Taken(st.queue, |ActiveSlots(st.pool)|);
            && taken > 0
            && next.queue == st.queue[taken..]
            && RecordItems(next.output) == RecordItems(st.output) + st.queue[..taken]
            && next.attempted == st.attempted + Elems(st.queue[..taken])
            && ActiveSlots(next.pool) == ActiveSlots(st.pool)
            && AlwaysOk(next.session) && InSession(next.pool, next.session)
  {
    var e := Batch(st);
    AllOkBatch(st);
    NoFailuresNothingPaired(e.results, LastChunk(st));
    RoundRequeue(st);
    assert forall i :: 0 <= i < |LastChunk(st)| ==> !e.results[i].Raised?;
    RoundFrame(st);
    RoundIsBatch(st);
  }

  /** The conditions under which a job drains: an active proxy, every
      endpoint answering 200, distinct items none of which was attempted. */
  predicate Drainable(st: State) {
    && ActiveSlots(st.pool) != []
    && AlwaysOk(st.session) && InSession(st.pool, st.session)
    && Distinct(st.queue)
    && (forall k :: 0 <= k < |st.queue| ==> st.queue[k] !in st.attempted)
  }

  lemma DrainStep(st: State)
    requires st.queue != [] && Drainable(st)
    ensures Round(st).Continue? && Drainable(Round(st).next)
    ensures var taken := Taken(st.queue, |ActiveSlots(st.pool)|);
            && 0 < taken <= |st.queue|
            && Round(st).next.queue == st.queue[taken..]
            && RecordItems(Round(st).next.output) == RecordItems(st.output) + st.queue[..taken]
  {
    RoundAllOk(st);
    var next := Round(st).next;
    FreshSuffix(st.queue, Taken(st.queue, |ActiveSlots(st.pool)|), st.attempted, next.attempted);
  }

  /** What is left of a distinct queue of fresh items, once its front has been
      marked attempted, is still distinct and fresh. */
  lemma FreshSuffix(queue: seq<string>, taken: nat, attempted: set<string>, marked: set<string>)
    requires taken <= |queue| && Distinct(queue)
    requires forall k :: 0 <= k < |queue| ==> queue[k] !in attempted
    requires marked == attempted + Elems(queue[..taken])
    ensures Distinct(queue[taken..])
    ensures forall k :: 0 <= k < |queue| - taken ==> queue[taken..][k] !in marked
  {
    forall k | 0 <= k < |queue| - taken
      ensures queue[taken..][k] !in marked
    {
      assert queue[taken..][k] == queue[taken + k];
      forall j | 0 <= j < taken
        ensures queue[..taken][j] != queue[taken + k]
      {
        assert queue[..taken][j] == queue[j];
      }
    }
  }

  lemma SplitRejoins(before: seq<string>, s: seq<string>, i: nat)
    requires i <= |s|
    ensures (before + s[..i]) + s[i..] == before + s
  {
    assert s[..i] + s[i..] == s;
  }

  /** A run from `st` with `fuel` rounds to spare finishes and records
      exactly the queued items after what was already written. */
  predicate DrainsWithin(st: State, fuel: nat) {
    && Loop(st, fuel).Finished?
    && RecordItems(Loop(st, fuel).final.output) == RecordItems(st.output) + st.queue
  }

  /** Once the first round has drained `taken` items, the rest of the run
      drains the others: the records of the first round followed by those of
      the rest of the run are the records of the whole run. */
  lemma {:induction false} DrainRest(st: State, fuel: nat, next: State, taken: nat)
    requires 0 < taken <= |st.queue| && fuel > 0
    requires Drainable(next) && fuel - 1 >= |next.queue|
    requires Round(st) == Continue(next)
    requires next.queue == st.queue[taken..]
    requires RecordItems(next.output) == RecordItems(st.output) + st.queue[..taken]
    ensures DrainsWithin(st, fuel)
    decreases fuel, 0
  {
    AlwaysOkDrainsQueue(next, fuel - 1);
    SplitRejoins(RecordItems(st.output), st.queue, taken);
  }

  /** The state after a draining round, with the number of items it took. */
  lemma NextDrainable(st: State, fuel: nat) returns (next: State, taken: nat)
    requires st.queue != [] && Drainable(st) && fuel > 0
    ensures Drainable(next) && Round(st) == Continue(next)
    ensures 0 < taken <= |st.queue|
    ensures next.queue == st.queue[taken..]
    ensures RecordItems(next.output) == RecordItems(st.output) + st.queue[..taken]
  {
    DrainStep(st);
    next := Round(st).next;
    taken := Taken(st.queue, |ActiveSlots(st.pool)|);
  }

  /** Round trip: with every endpoint answering 200, a queue of distinct
      items drains within as many rounds as it has items, and the records
      written are exactly the items, in queue order. */
  lemma {:induction false} AlwaysOkDrainsQueue(st: State, fuel: nat)
    requires Drainable(st)
    requires fuel >= |st.queue|
    ensures DrainsWithin(st, fuel)
    decreases fuel, 1
  {
    if st.queue == [] {
      assert RecordItems(st.output) + st.queue == RecordItems(st.output);
    } else {
      var next, taken := NextDrainable(st, fuel);
      DrainRest(st, fuel, next, taken);
    }
  }

  /** The same at the level of a whole job. */
  lemma AlwaysOkRecordsEveryItem(queue: seq<string>, pool: seq<Proxy>, session: Session, output: seq<Record>, fuel: nat)
    requires ActiveSlots(pool) != []
    requires AlwaysOk(session) && InSession(pool, session)
    requires Distinct(queue)
    requires fuel >= |queue|
    ensures DistributeRequests(queue, pool, session, output, fuel).Finished?
    ensures RecordItems(DistributeRequests(queue, pool, session, output, fuel).final.output) == RecordItems(output) + queue
  {
    AlwaysOkDrainsQueue(State(queue, pool, session, {}, output), fuel);
  }

  /** When the snapshot's chunks cover the whole queue, the same job needs a
      single round: it finishes with any fuel at all, having recorded every
      item in queue order. */
  lemma AlwaysOkOneRound(queue: seq<string>, pool: seq<Proxy>, session: Session, output: seq<Record>, fuel: nat)
    requires ActiveSlots(pool) != []
    requires AlwaysOk(session) && InSession(pool, session)
    requires Distinct(queue)
    requires |queue| <= |ActiveSlots(pool)| * MaxConcurrentRequestsPerProxy
    requires fuel > 0
    ensures DistributeRequests(queue, pool, session, output, fuel).Finished?
    ensures RecordItems(DistributeRequests(queue, pool, session, output, fuel).final.output) == RecordItems(output) + queue
  {
    var st := State(queue, pool, session, {}, output);
    if queue != [] {
      DrainStep(st);
      var next := Round(st).next;
      assert Taken(queue, |ActiveSlots(pool)|) == |queue|;
      assert queue[..|queue|] == queue;
      LoopUnfolds(st, fuel);
      assert Loop(next, fuel - 1) == Finished(next);
    }
  }

  // ---------------------------------------------------------------------------
  // What the requeue step loses

  /** Every task of a round whose items were all attempted before is skipped:
      it returns False and changes nothing. */
  lemma {:induction false} ExecuteAllSkipped(tasks: seq<Task>, pool: seq<Proxy>, session: Session, attempted: set<string>, output: seq<Record>)
    requires SlotsIn(tasks, |pool|)
    requires forall k :: 0 <= k < |tasks| ==> tasks[k].item in attempted
    ensures var e := Execute(tasks, pool, session, attempted, output);
            && (forall k :: 0 <= k < |tasks| ==> e.results[k] == Returned(false))
            && e.pool == pool && e.session == session && e.attempted == attempted && e.output == output
    decreases |tasks|
  {
    if tasks != [] {
      var t := tasks[0];
      assert Fetch(pool[t.slot], session, t.item, attempted) == Fetched(pool[t.slot], session, attempted, [], Returned(false));
      assert pool[t.slot := pool[t.slot]] == pool;
      assert output + [] == output;
      ExecuteAllSkipped(tasks[1..], pool, session, attempted, output);
      var e := Execute(tasks, pool, session, attempted, output);
      var rest := Execute(tasks[1..], pool, session, attempted, output);
      assert e.results == [Returned(false)] + rest.results;
    }
  }

  lemma {:induction false} AllFailuresPaired(results: seq<Outcome>, chunk: seq<string>)
    requires |results| == |chunk|
    requires forall k :: 0 <= k < |results| ==> results[k] == Returned(false)
    ensures PairedFailures(results, chunk) == chunk
    decreases |chunk|
  {
    if chunk != [] {
      assert forall k :: 0 <= k < |results| - 1 ==> results[1..][k] == results[k + 1];
      AllFailuresPaired(results[1..], chunk[1..]);
    }
  }

  /** With one active proxy and a queue no longer than its share, that proxy
      takes the whole queue, in order, and nothing is left over. */
  lemma SoleProxyTakesQueue(st: State)
    requires |ActiveSlots(st.pool)| == 1
    requires |st.queue| <= MaxConcurrentRequestsPerProxy
    ensures LastChunk(st) == st.queue && Rest(st) == []
    ensures var tasks := RoundTasks(st);
            && |tasks| == |st.queue|
            && forall k :: 0 <= k < |tasks| ==> tasks[k] == Task(ActiveSlots(st.pool)[0], st.queue[k])
  {
    var tasks := RoundTasks(st);
    var slots := ActiveSlots(st.pool);
    ChunkShape(st);
    assert Offset(st.queue, 1) == |st.queue|;
    assert Offset(st.queue, 0) == 0;
    assert st.queue[0..|st.queue|] == st.queue;
    assert Partition(st.queue, 1).0[0] == LastChunk(st);
    assert Partition(st.queue, 1).0 == [st.queue];
    assert tasks == ChunkTasks(slots[0], st.queue) + Tasks(slots[1..], []);
  }

  /** With one active proxy and a short queue, that proxy takes the whole
      queue; when every item was attempted already, every task is skipped. */
  lemma SkippedBatch(st: State)
    requires st.queue != [] && |ActiveSlots(st.pool)| == 1
    requires |st.queue| <= MaxConcurrentRequestsPerProxy
    requires forall k :: 0 <= k < |st.queue| ==> st.queue[k] in st.attempted
    ensures LastChunk(st) == st.queue && Rest(st) == []
    ensures var e := Batch(st);
            && |e.results| == |st.queue|
            && (forall k :: 0 <= k < |e.results| ==> e.results[k] == Returned(false))
            && e.pool == st.pool && e.session == st.session && e.attempted == st.attempted && e.output == st.output
  {
    var tasks := RoundTasks(st);
    SoleProxyTakesQueue(st);
    ExecuteAllSkipped(tasks, st.pool, st.session, st.attempted, st.output);
  }

  /** With one active proxy and a short queue of items that were all attempted
      already, a round skips every item, writes nothing, and puts the queue
      back reversed. */
  lemma RoundOfSkippedItems(st: State)
    requires st.queue != [] && |ActiveSlots(st.pool)| == 1
    requires |st.queue| <= MaxConcurrentRequestsPerProxy
    requires forall k :: 0 <= k < |st.queue| ==> st.queue[k] in st.attempted
    ensures Round(st) == Continue(st.(queue := Reverse(st.queue)))
  {
    SkippedBatch(st);
    var e := Batch(st);
    AllFailuresPaired(e.results, st.queue);
    RequeuePushesFailures(e.results, LastChunk(st), Rest(st));
    assert Reverse(st.queue) + [] == Reverse(st.queue);
  }

  /** Under the same conditions the job cycles: two rounds bring back the
      very state it started from. */
  lemma SkippedItemsCycle(st: State)
    requires st.queue != [] && |ActiveSlots(st.pool)| == 1
    requires |st.queue| <= MaxConcurrentRequestsPerProxy
    requires forall k :: 0 <= k < |st.queue| ==> st.queue[k] in st.attempted
    ensures Round(st).Continue? && Round(st).next.queue != []
    ensures Round(Round(st).next) == Continue(st)
  {
    RoundOfSkippedItems(st);
    var next := st.(queue := Reverse(st.queue));
    forall k | 0 <= k < |next.queue|
      ensures next.queue[k] in next.attempted
    {
      ReverseElems(st.queue, next.queue[k]);
    }
    RoundOfSkippedItems(next);
    ReverseReverse(st.queue);
  }

  /** The skip livelock with one active proxy: an item that is back on the
      queue after its attempt (a 503, or a duplicate) is skipped as already
      attempted, and the proxy's chunk is also the last chunk, so the item is
      requeued in every round. The loop therefore never finishes, writes
      nothing more, and never touches a proxy again. */
  lemma {:induction false} SkippedItemsCirculate(st: State, fuel: nat)
    requires st.queue != [] && |ActiveSlots(st.pool)| == 1
    requires |st.queue| <= MaxConcurrentRequestsPerProxy
    requires forall k :: 0 <= k < |st.queue| ==> st.queue[k] in st.attempted
    ensures Loop(st, fuel).OutOfFuel?
    ensures Loop(st, fuel).last.output == st.output && Loop(st, fuel).last.pool == st.pool
    decreases fuel
  {
    if fuel > 0 {
      RoundOfSkippedItems(st);
      var next := st.(queue := Reverse(st.queue));
      forall k | 0 <= k < |next.queue|
        ensures next.queue[k] in next.attempted
      {
        ReverseElems(st.queue, next.queue[k]);
      }
      SkippedItemsCirculate(next, fuel - 1);
    }
  }

  /** Circulating items do not shield the job from errors: with one active
      proxy, a skipped item ahead of a fresh one whose request gets a status
      other than 200 or 503 still has its False looked at first, and the
      fresh item's exception then ends the job. */
  lemma SkippedItemDoesNotStopErrors(st: State, status: int, information: string)
    requires |ActiveSlots(st.pool)| == 1 && |st.queue| == 2
    requires st.queue[0] in st.attempted && st.queue[1] !in st.attempted
    requires NextReply(st.session, st.pool[ActiveSlots(st.pool)[0]].address) == Response(status, information)
    requires status != 200 && status != 503
    ensures Round(st) == Abort(UnexpectedResponseCode(status), st.output)
  {
    var slot := ActiveSlots(st.pool)[0];
    SoleProxyTakesQueue(st);
    var tasks := RoundTasks(st);
    var f := Fetch(st.pool[slot], st.session, st.queue[0], st.attempted);
    assert f == Fetched(st.pool[slot], st.session, st.attempted, [], Returned(false));
    assert st.pool[slot := f.proxy] == st.pool;
    assert tasks[1..] == [Task(slot, st.queue[1])];
    var g := Fetch(st.pool[slot], st.session, st.queue[1], st.attempted);
    assert g.outcome == Raised(UnexpectedResponseCode(status)) && g.written == [];
    assert tasks[1..][1..] == [];
    assert st.output + [] == st.output;
    var last := Execute(tasks[1..][1..], st.pool[slot := g.proxy], g.session, g.attempted, st.output);
    assert last.output == st.output;
    var rest := Execute(tasks[1..], st.pool, st.session, st.attempted, st.output);
    assert rest.output == st.output;
    var e := Batch(st);
    assert e.results == [Returned(false), Raised(UnexpectedResponseCode(status))];
    assert e.output == st.output;
    RequeueReraisesFirst(e.results, LastChunk(st), Rest(st), 1);
  }

  /** A single item that was attempted already, with one active proxy:
      every round gives back the very state it started from. */
  lemma {:induction false} LoopKeepsQueueWhileCirculating(st: State, fuel: nat)
    requires |st.queue| == 1 && |ActiveSlots(st.pool)| == 1
    requires st.queue[0] in st.attempted
    ensures Loop(st, fuel).OutOfFuel? && Loop(st, fuel).last == st
    decreases fuel
  {
    if fuel > 0 {
      RoundOfSkippedItems(st);
      assert Reverse(st.queue) == st.queue;
      assert st.(queue := st.queue) == st;
      LoopKeepsQueueWhileCirculating(st, fuel - 1);
    }
  }

  /** The tasks of a round with one active proxy and a short queue are that
      proxy fetching the queue's items one after the other. */
  lemma SoleProxyBatch(st: State)
    requires |ActiveSlots(st.pool)| == 1
    requires |st.queue| <= MaxConcurrentRequestsPerProxy
    ensures var slot := ActiveSlots(st.pool)[0];
            var e := Batch(st);
            var s := FetchEach(st.pool[slot], st.session, st.queue, st.attempted);
            && slot < |st.pool|
            && e.results == s.outcomes
            && e.pool == st.pool[slot := s.proxy]
            && e.output == st.output + s.written
  {
    var slot := ActiveSlots(st.pool)[0];
    var tasks := RoundTasks(st);
    SoleProxyTakesQueue(st);
    var chunk := ChunkTasks(slot, st.queue);
    assert forall k :: 0 <= k < |chunk| ==> chunk[k] == Task(slot, st.queue[k]) by {
      forall k | 0 <= k < |chunk|
        ensures chunk[k] == Task(slot, st.queue[k])
      {
        assert chunk[k].item == Items(chunk)[k];
      }
    }
    assert tasks == chunk;
    ExecuteChunkIsFetchEach(slot, st.queue, st.pool, st.session, st.attempted, st.output);
  }

  /** The retirement threshold inside a round: the one active proxy, whose
      endpoint only answers 503, gets a short queue of distinct fresh items.
      Every fetch returns False, so the round completes and puts the whole
      queue back reversed, writes nothing, leaves the other proxies alone,
      raises the proxy's count by the number of items, and leaves the proxy
      active exactly when that count stays under the threshold. */
  lemma SoleUnavailableProxyRound(st: State)
    requires st.queue != [] && |ActiveSlots(st.pool)| == 1
    requires |st.queue| <= MaxConcurrentRequestsPerProxy
    requires AlwaysUnavailable(st.session, st.pool[ActiveSlots(st.pool)[0]].address)
    requires Distinct(st.queue)
    requires forall k :: 0 <= k < |st.queue| ==> st.queue[k] !in st.attempted
    ensures Round(st).Continue?
    ensures var next := Round(st).next;
            var slot := ActiveSlots(st.pool)[0];
            && next.queue == Reverse(st.queue)
            && next.output == st.output
            && |next.pool| == |st.pool|
            && next.pool == st.pool[slot := next.pool[slot]]
            && next.pool[slot].retryCount == st.pool[slot].retryCount + |st.queue|
            && (next.pool[slot].active <==> st.pool[slot].retryCount + |st.queue| < MaxRetryAttempts)
  {
    var slot := ActiveSlots(st.pool)[0];
    SoleProxyBatch(st);
    RetiredAfterThreshold(st.pool[slot], st.session, st.queue, st.attempted);
    var e := Batch(st);
    SoleProxyTakesQueue(st);
    AllFailuresPaired(e.results, st.queue);
    RequeuePushesFailures(e.results, LastChunk(st), Rest(st));
    assert Reverse(st.queue) + [] == Reverse(st.queue);
    RoundIsBatch(st);
  }

  /** When the queue is too short to reach the last proxy of the snapshot,
      that proxy's chunk is empty, so the requeue loop pairs nothing: the
      round always completes, whatever the tasks returned or raised, and the
      queue comes out empty, so items whose fetch returned False are dropped. */
  lemma FailuresOfEarlierProxiesAreDropped(st: State)
    requires st.queue != []
    requires |ActiveSlots(st.pool)| >= 2
    requires |st.queue| <= (|ActiveSlots(st.pool)| - 1) * MaxConcurrentRequestsPerProxy
    ensures Round(st).Continue?
    ensures Round(st).next.queue == []
  {
    var n := |ActiveSlots(st.pool)|;
    ChunkShape(st);
    assert Offset(st.queue, n - 1) == |st.queue|;
    assert LastChunk(st) == [];
    RoundRequeue(st);
  }

  /** With two or more proxies, a requeued item is not the one put back: the
      queue is one item longer than the first proxies' chunks, so the last
      chunk holds only the final item. The first item was attempted already,
      so its task returns False; the requeue loop pairs that False with the
      final item, which goes back on the queue whatever its own task did
      (it may well have been recorded), and the first item is dropped. The
      item put back is attempted by then, so later rounds skip it too. */
  lemma RequeuedItemIsSwapped(st: State)
    requires |ActiveSlots(st.pool)| >= 2
    requires |st.queue| == Span(|ActiveSlots(st.pool)| - 1) + 1
    requires Distinct(st.queue)
    requires st.queue[0] in st.attempted
    ensures Round(st).Continue?
    ensures Round(st).next.queue == [st.queue[|st.queue| - 1]]
    ensures st.queue[0] !in Round(st).next.queue
    ensures st.queue[|st.queue| - 1] in Round(st).next.attempted
  {
    var last := |st.queue| - 1;
    LastChunkIsFinalItem(st);
    FirstTaskSkipped(st);
    PairedFalseRequeued(st, st.queue[last]);
    TakenItemAttempted(st, last);
  }

  /** A queue one item longer than the first proxies' chunks leaves the
      last proxy only the final item, and nothing untaken. */
  lemma LastChunkIsFinalItem(st: State)
    requires |ActiveSlots(st.pool)| >= 2
    requires |st.queue| == Span(|ActiveSlots(st.pool)| - 1) + 1
    ensures LastChunk(st) == [st.queue[|st.queue| - 1]]
    ensures Taken(st.queue, |ActiveSlots(st.pool)|) == |st.queue|
  {
    var n := |ActiveSlots(st.pool)|;
    var last := |st.queue| - 1;
    assert Offset(st.queue, n - 1) == last && Offset(st.queue, n) == |st.queue|;
    PartitionChunk(st.queue, n, n - 1);
    assert st.queue[last..|st.queue|] == [st.queue[last]];
  }

  /** A one-item last chunk whose paired result is False, with nothing
      untaken: the round completes and the next queue is that one item. */
  lemma PairedFalseRequeued(st: State, x: string)
    requires st.queue != [] && ActiveSlots(st.pool) != []
    requires LastChunk(st) == [x] && Taken(st.queue, |ActiveSlots(st.pool)|) == |st.queue|
    requires |Batch(st).results| > 0 && Batch(st).results[0] == Returned(false)
    ensures Round(st).Continue? && Round(st).next.queue == [x]
  {
    SoleResultPaired(st);
    RoundRequeue(st);
    assert PairedFailures(Batch(st).results, [x]) == [x];
    assert Reverse([x]) == [x];
    assert st.queue[|st.queue|..] == [];
  }

  /** A last chunk of one item pairs only the first result, so a first
      result that is not an exception lets the round complete. */
  lemma SoleResultPaired(st: State)
    requires st.queue != [] && ActiveSlots(st.pool) != []
    requires |LastChunk(st)| == 1 && |Batch(st).results| > 0 && Batch(st).results[0].Returned?
    ensures Round(st).Continue?
  {
    RoundRequeue(st);
    forall i | 0 <= i < |LastChunk(st)|
      ensures !Batch(st).results[i].Raised?
    {
      assert i == 0;
    }
  }

  /** The first task of a round fetches the head of the queue, so an
      attempted head gives a False first result. */
  lemma FirstTaskSkipped(st: State)
    requires st.queue != [] && ActiveSlots(st.pool) != []
    requires st.queue[0] in st.attempted
    ensures |Batch(st).results| > 0 && Batch(st).results[0] == Returned(false)
  {
    assert Offset(st.queue, 1) > 0;
    RoundTaskSlot(st, 0, 0);
  }

  /** An item some proxy took in a completed round is attempted afterwards. */
  lemma TakenItemAttempted(st: State, i: nat)
    requires st.queue != [] && ActiveSlots(st.pool) != [] && Round(st).Continue?
    requires i < Taken(st.queue, |ActiveSlots(st.pool)|)
    ensures st.queue[i] in Round(st).next.attempted
  {
    RoundFrame(st);
    assert st.queue[i] in st.queue[..Taken(st.queue, |ActiveSlots(st.pool)|)];
  }
}

=== FILE: mock_proxy.dfy ===
/**
 `MockProxy` from tests/test_main.py: a stand-in for a proxy that walks
 cyclically through a fixed list of status codes instead of sending requests,
 and otherwise repeats the outcome logic of `Proxy.fetch_single`. It is
 modelled on its own, from its own code, and then shown to behave exactly like
 `Proxies.Fetch` talking to an endpoint scripted with the same codes, which is
 how the test scenarios drive the manager.
 */
module Mock {
  import opened Upstream
  import opened Proxies

  /** The information a mock returns with every 200. */
  const MockInformation: string := "mock_data"

  datatype MockProxy = MockProxy(address: string, active: bool, retryCount: nat, sequence: seq<int>, index: nat)

  /** The position in the code list always points into the list. */
  predicate Valid(m: MockProxy) {
    m.index < |m.sequence|
  }

  /** A fresh mock; an empty code list means the default `[200]`. */
  function NewMock(address: string, sequence: seq<int>): (m: MockProxy)
    ensures Valid(m)
    ensures m.address == address && m.active && m.retryCount == 0 && m.index == 0
    ensures sequence != [] ==> m.sequence == sequence
    ensures sequence == [] ==> m.sequence == [200]
  {
    MockProxy(address, true, 0, if sequence == [] then [200] else sequence, 0)
  }

  /** `MockProxy.block_proxy`: the mock's side of `Proxies.Block`. */
  function BlockMock(m: MockProxy): (b: MockProxy)
    ensures !b.active
    ensures b.address == m.address && b.retryCount == m.retryCount
    ensures b.sequence == m.sequence && b.index == m.index
    ensures AsProxy(b) == Block(AsProxy(m))
  {
    m.(active := false)
  }

  datatype MockFetched = MockFetched(mock: MockProxy, attempted: set<string>, written: seq<Record>, outcome: Outcome)

  /** `MockProxy.fetch_single`. */
  function MockFetch(m: MockProxy, item: string, attempted: set<string>): (f: MockFetched)
    requires Valid(m)
    ensures Valid(f.mock)
    ensures f.mock.address == m.address && f.mock.sequence == m.sequence
    ensures f.mock.active ==> m.active
    ensures item in attempted ==> f == MockFetched(m, attempted, [], Returned(false))
    ensures item !in attempted ==> f.attempted == attempted + {item} && f.mock.index == (m.index + 1) % |m.sequence|
    ensures item !in attempted && m.sequence[m.index] == 200 ==>
              && f.outcome == Returned(true) && f.written == [Record(item, MockInformation)]
              && f.mock.retryCount == 0 && f.mock.active == m.active
    ensures item !in attempted && m.sequence[m.index] == 503 ==>
              && f.outcome == Returned(false) && f.written == []
              && f.mock.retryCount == m.retryCount + 1
              && (f.mock.active <==> m.active && f.mock.retryCount < MaxRetryAttempts)
    ensures item !in attempted && m.sequence[m.index] != 200 && m.sequence[m.index] != 503 ==>
              && f.outcome == Raised(UnexpectedResponseCode(m.sequence[m.index])) && f.written == []
              && f.mock.retryCount == m.retryCount && f.mock.active == m.active
  {
    if item in attempted then
      MockFetched(m, attempted, [], Returned(false))
    else
      var marked := attempted + {item};
      var code := m.sequence[m.index];
      var advanced := m.(index := (m.index + 1) % |m.sequence|);
      if code == 200 then
        MockFetched(advanced.(retryCount := 0), marked, [Record(item, MockInformation)], Returned(true))
      else if code == 503 then
        var q := advanced.(retryCount := advanced.retryCount + 1);
        MockFetched(if q.retryCount >= MaxRetryAttempts then BlockMock(q) else q, marked, [], Returned(false))
      else
        MockFetched(advanced, marked, [], Raised(UnexpectedResponseCode(code)))
  }

  /** The replies of an endpoint that answers with the mock's codes. */
  function Scripted(codes: seq<int>): (replies: seq<Reply>)
    ensures |replies| == |codes|
  {
    seq(|codes|, k requires 0 <= k < |codes| => Response(codes[k], MockInformation))
  }

  function AsProxy(m: MockProxy): Proxy {
    Proxy(m.address, m.active, m.retryCount)
  }

  function AsEndpoint(m: MockProxy): Endpoint {
    Endpoint(Scripted(m.sequence), m.index)
  }

  /** The session a list of mocks stands for; a later mock with the same
      address replaces an earlier one, as in a dict comprehension. */
  function MockSession(mocks: seq<MockProxy>): (s: Session)
    ensures forall m :: m in mocks ==> m.address in s
  {
    if mocks == [] then map[]
    else MockSession(mocks[..|mocks| - 1])[mocks[|mocks| - 1].address := AsEndpoint(mocks[|mocks| - 1])]
  }

  /** A mock and a real proxy whose endpoint is scripted with the mock's codes
      and sits at the mock's position take the same step: same proxy state,
      same attempted set, same records, same outcome, and the endpoint is again
      at the mock's new position. */
  lemma MockAgreesWithProxy(m: MockProxy, session: Session, item: string, attempted: set<string>)
    requires Valid(m)
    requires m.address in session
    requires session[m.address].replies == Scripted(m.sequence)
    requires session[m.address].position == m.index
    ensures var f := MockFetch(m, item, attempted);
            var g := Fetch(AsProxy(m), session, item, attempted);
            && AsProxy(f.mock) == g.proxy
            && f.attempted == g.attempted
            && f.written == g.written
            && f.outcome == g.outcome
            && g.session[m.address].replies == Scripted(m.sequence)
            && g.session[m.address].position == f.mock.index
  {
    if item !in attempted {
      ScriptedEndpointStep(m, session);
      var code := m.sequence[m.index];
      if code == 200 {
      } else if code == 503 {
      } else {
      }
    }
  }

  datatype MockServed = MockServed(mock: MockProxy, attempted: set<string>, written: seq<Record>, outcomes: seq<Outcome>)

  /** One mock fetching a list of items one after the other, as the tasks of
      its chunk do. */
  function MockFetchEach(m: MockProxy, items: seq<string>, attempted: set<string>): (s: MockServed)
    requires Valid(m)
    ensures Valid(s.mock) && s.mock.address == m.address && s.mock.sequence == m.sequence
    ensures |s.outcomes| == |items|
    decreases |items|
  {
    if items == [] then
      MockServed(m, attempted, [], [])
    else
      var f := MockFetch(m, items[0], attempted);
      var rest := MockFetchEach(f.mock, items[1..], f.attempted);
      MockServed(rest.mock, rest.attempted, f.written + rest.written, [f.outcome] + rest.outcomes)
  }

  /** The one-step agreement, carried through a whole chunk: a mock serving
      a list of items and the real proxy serving it through the scripted
      endpoint produce the same proxy states, attempted sets, records and
      outcomes; the endpoint ends at the mock's position and every other
      endpoint is left alone. */
  lemma {:induction false} MockServesLikeProxy(m: MockProxy, session: Session, items: seq<string>, attempted: set<string>)
    requires Valid(m)
    requires m.address in session
    requires session[m.address].replies == Scripted(m.sequence)
    requires session[m.address].position == m.index
    ensures var s := MockFetchEach(m, items, attempted);
            var t := FetchEach(AsProxy(m), session, items, attempted);
            && AsProxy(s.mock) == t.proxy
            && s.attempted == t.attempted
            && s.written == t.written
            && s.outcomes == t.outcomes
            && m.address in t.session && t.session[m.address] == AsEndpoint(s.mock)
            && t.session.Keys == session.Keys
            && (forall a :: a in session && a != m.address ==> t.session[a] == session[a])
    decreases |items|
  {
    if items != [] {
      MockAgreesWithProxy(m, session, items[0], attempted);
      var f := MockFetch(m, items[0], attempted);
      var g := Fetch(AsProxy(m), session, items[0], attempted);
      MockServesLikeProxy(f.mock, g.session, items[1..], f.attempted);
    }
  }

  /** An endpoint scripted with a mock's codes and sitting at the mock's
      position answers with the mock's current code and moves on as the
      mock's position does. */
  lemma ScriptedEndpointStep(m: MockProxy, session: Session)
    requires Valid(m)
    requires m.address in session
    requires session[m.address].replies == Scripted(m.sequence)
    requires session[m.address].position == m.index
    ensures NextReply(session, m.address) == Response(m.sequence[m.index], MockInformation)
    ensures Send(session, m.address)[m.address] == Endpoint(Scripted(m.sequence), (m.index + 1) % |m.sequence|)
  {
    var n := |m.sequence|;
    SmallRemainder(m.index, n);
    assert Scripted(m.sequence)[m.index] == Response(m.sequence[m.index], MockInformation);
  }

  lemma SmallRemainder(a: nat, n: nat)
    requires a < n
    ensures a % n == a
  {
  }
}

=== FILE: proxy.dfy ===
/**
 One proxy worker (`Proxy` in src/main.py): its address, whether it is still
 active, and how many 503 replies it has received since its last success, with
 the outcome logic of one fetch. The HTTP request itself is the `Upstream`
 oracle; the output file is the sequence of records a fetch appends.
 */
module Proxies {
  import opened Upstream

  /** Number of 503 replies after which a proxy is retired. */
  const MaxRetryAttempts: nat := 10

  datatype Proxy = Proxy(address: string, active: bool, retryCount: nat)

  /** A proxy as the manager creates it: active, with no 503 on record. */
  function NewProxy(address: string): (p: Proxy)
    ensures p.address == address && p.active && p.retryCount == 0
  {
    Proxy(address, true, 0)
  }

  /** Retire the proxy; retirement is never undone. */
  function Block(p: Proxy): (q: Proxy)
    ensures !q.active
    ensures q.address == p.address && q.retryCount == p.retryCount
  {
    p.(active := false)
  }

  /** One line of the output file: the item, then after a space the information. */
  datatype Record = Record(item: string, information: string)

  /** The exceptions that end a job. */
  datatype Error = NoAvailableProxies | UnexpectedResponseCode(code: int) | ClientError

  /** What a fetch task ends with: the boolean it returns, or the exception it raises. */
  datatype Outcome = Returned(success: bool) | Raised(error: Error)

  datatype Fetched = Fetched(proxy: Proxy, session: Session, attempted: set<string>, written: seq<Record>, outcome: Outcome)

  /** Status codes that do not raise. */
  predicate Handled(reply: Reply) {
    reply.Response? && (reply.status == 200 || reply.status == 503)
  }

  /** `fetch_single`: skip an item already attempted; otherwise mark it
      attempted, send the request, and classify the reply. A 200 appends one
      record and clears the retry count, a 503 counts one more retry and
      retires the proxy once the count reaches the threshold, anything else
      raises. The proxy's `active` flag is not consulted. */
  function Fetch(p: Proxy, session: Session, item: string, attempted: set<string>): (f: Fetched)
    ensures f.proxy.address == p.address
    ensures f.proxy.active ==> p.active
    ensures item in attempted ==> f == Fetched(p, session, attempted, [], Returned(false))
    ensures item !in attempted ==> f.attempted == attempted + {item} && f.session == Send(session, p.address)
    ensures f.outcome == Returned(true) <==>
              item !in attempted && NextReply(session, p.address).Response? && NextReply(session, p.address).status == 200
    ensures f.outcome == Returned(true) ==>
              f.written == [Record(item, NextReply(session, p.address).information)] && f.proxy == p.(retryCount := 0)
    ensures f.outcome != Returned(true) ==> f.written == []
    ensures item !in attempted && NextReply(session, p.address).Response? && NextReply(session, p.address).status == 503 ==>
              && f.outcome == Returned(false)
              && f.proxy.retryCount == p.retryCount + 1
              && (f.proxy.active <==> p.active && f.proxy.retryCount < MaxRetryAttempts)
    ensures f.outcome.Raised? <==> item !in attempted && !Handled(NextReply(session, p.address))
    ensures f.outcome.Raised? ==>
              && f.proxy == p
              && f.outcome.error == (if NextReply(session, p.address).ConnectionFailed? then ClientError
                                     else UnexpectedResponseCode(NextReply(session, p.address).status))
  {
    if item in attempted then
      Fetched(p, session, attempted, [], Returned(false))
    else
      var marked := attempted + {item};
      var sent := Send(session, p.address);
      match NextReply(session, p.address)
      case ConnectionFailed =>
        Fetched(p, sent, marked, [], Raised(ClientError))
      case Response(status, information) =>
        if status == 200 then
          Fetched(p.(retryCount := 0), sent, marked, [Record(item, information)], Returned(true))
        else if status == 503 then
          var q := p.(retryCount := p.retryCount + 1);
          Fetched(if q.retryCount >= MaxRetryAttempts then Block(q) else q, sent, marked, [], Returned(false))
        else
          Fetched(p, sent, marked, [], Raised(UnexpectedResponseCode(status)))
  }

  datatype Served = Served(proxy: Proxy, session: Session, attempted: set<string>, written: seq<Record>, outcomes: seq<Outcome>)

  /** One proxy fetching a list of items one after the other. */
  function FetchEach(p: Proxy, session: Session, items: seq<string>, attempted: set<string>): (s: Served)
    ensures |s.outcomes| == |items|
    decreases |items|
  {
    if items == [] then
      Served(p, session, attempted, [], [])
    else
      var f := Fetch(p, session, items[0], attempted);
      var rest := FetchEach(f.proxy, f.session, items[1..], f.attempted);
      Served(rest.proxy, rest.session, rest.attempted, f.written + rest.written, [f.outcome] + rest.outcomes)
  }

  predicate Distinct(items: seq<string>) {
    forall i, j :: 0 <= i < j < |items| ==> items[i] != items[j]
  }

  /** Retirement threshold: a proxy whose endpoint only ever answers 503,
      given fresh items, counts one retry per item, writes nothing, returns
      False each time, and is inactive exactly when the count has reached the
      threshold. */
  lemma {:induction false} RetiredAfterThreshold(p: Proxy, session: Session, items: seq<string>, attempted: set<string>)
    requires AlwaysUnavailable(session, p.address)
    requires Distinct(items)
    requires forall k :: 0 <= k < |items| ==> items[k] !in attempted
    ensures var s := FetchEach(p, session, items, attempted);
            && s.proxy.retryCount == p.retryCount + |items|
            && (s.proxy.active <==> p.active && (items == [] || p.retryCount + |items| < MaxRetryAttempts))
            && s.written == []
            && (forall k :: 0 <= k < |items| ==> s.outcomes[k] == Returned(false))
    decreases |items|
  {
    if items != [] {
      var f := Fetch(p, session, items[0], attempted);
      assert NextReply(session, p.address).status == 503;
      assert forall k :: 0 <= k < |items[1..]| ==> items[1..][k] !in f.attempted by {
        forall k | 0 <= k < |items[1..]|
          ensures items[1..][k] !in f.attempted
        {
          assert items[1..][k] == items[k + 1];
        }
      }
      RetiredAfterThreshold(f.proxy, f.session, items[1..], f.attempted);
    }
  }
}

=== FILE: proxy_manager.dfy ===
/**
 `ProxyManager` from src/main.py: the pool of proxies keyed by address, and
 `distribute_requests`, which repeats a dispatch round while the queue is not
 empty. A round snapshots the active proxies, hands each the next thirty items,
 runs every fetch task, and then requeues items using the code's own pairing:
 the task results are zipped with the chunk of the LAST proxy in the snapshot,
 and each paired item whose task returned False is pushed onto the front of the
 queue. The tasks are run to completion in the order they were created.

 The loop is not guaranteed to end (with one active proxy, an item requeued
 after a 503 is skipped as already attempted and requeued again, round after
 round), so it is driven with fuel and only per-round facts are claimed of it.
 */
module Manager {
  import opened Upstream
  import opened Proxies

  /** Items handed to each active proxy per round. */
  const MaxConcurrentRequestsPerProxy: nat := 30

  function Min(a: int, b: int): int {
    if a <= b then a else b
  }

  function Elems(s: seq<string>): set<string> {
    set x | x in s
  }

  function Reverse<T>(s: seq<T>): (r: seq<T>)
    ensures |r| == |s|
  {
    if s == [] then [] else Reverse(s[1..]) + [s[0]]
  }

  lemma {:induction false} ReverseReverse<T>(s: seq<T>)
    ensures Reverse(Reverse(s)) == s
    decreases |s|
  {
    if s != [] {
      ReverseReverse(s[1..]);
      ReverseAppend(Reverse(s[1..]), [s[0]]);
      assert Reverse([s[0]]) == [s[0]];
      assert s == [s[0]] + s[1..];
    }
  }

  lemma {:induction false} ReverseAppend<T>(a: seq<T>, b: seq<T>)
    ensures Reverse(a + b) == Reverse(b) + Reverse(a)
    decreases |a|
  {
    if a == [] {
      assert a + b == b;
    } else {
      assert (a + b)[1..] == a[1..] + b;
      ReverseAppend(a[1..], b);
    }
  }

  // ---------------------------------------------------------------------------
  // The pool

  function Addresses(pool: seq<Proxy>): (addresses: seq<string>)
    ensures |addresses| == |pool|
    ensures forall k :: 0 <= k < |pool| ==> addresses[k] == pool[k].address
  {
    seq(|pool|, k requires 0 <= k < |pool| => pool[k].address)
  }

  /** Position of the first occurrence of `x` in `xs`, or `|xs|` if there is none. */
  function FirstIndex(xs: seq<string>, x: string): (i: nat)
    ensures i <= |xs|
    ensures i < |xs| <==> x in xs
    ensures i < |xs| ==> xs[i] == x
    ensures forall k :: 0 <= k < i ==> xs[k] != x
  {
    if xs == [] then 0
    else if xs[0] == x then 0
    else
      var i := FirstIndex(xs[1..], x);
      assert forall k :: 1 <= k <= i ==> xs[k] == xs[1..][k - 1];
      1 + i
  }

  lemma FirstIndexInPrefix(xs: seq<string>, n: nat, x: string)
    requires n <= |xs| && x in xs[..n]
    ensures FirstIndex(xs, x) == FirstIndex(xs[..n], x)
  {
    var i := FirstIndex(xs[..n], x);
    assert xs[i] == x;
  }

  /** `ProxyManager.__init__`: one fresh proxy per distinct address, in the
      order each address first appears. A repeated address re-assigns its key
      with an equally fresh proxy, so the entry it already has stays as it is. */
  function NewPool(addresses: seq<string>): (pool: seq<Proxy>)
    ensures forall k :: 0 <= k < |pool| ==> pool[k] == NewProxy(pool[k].address)
    ensures forall a :: a in addresses <==> a in Addresses(pool)
    ensures Distinct(Addresses(pool))
    ensures forall i, j :: 0 <= i < j < |pool| ==>
              FirstIndex(addresses, pool[i].address) < FirstIndex(addresses, pool[j].address)
  {
    if addresses == [] then []
    else
      var n := |addresses| - 1;
      var before := NewPool(addresses[..n]);
      var a := addresses[n];
      assert forall x :: x in addresses <==> x in addresses[..n] || x == a by {
        assert addresses == addresses[..n] + [a];
      }
      if a in Addresses(before) then
        PoolOrderExtends(addresses, before);
        before
      else
        var pool := before + [NewProxy(a)];
        assert Addresses(pool) == Addresses(before) + [a];
        PoolOrderExtends(addresses, before);
        assert FirstIndex(addresses, a) == n by {
          assert a !in addresses[..n];
        }
        pool
  }

  /** The first-occurrence order of a pool built from a prefix still holds
      when it is measured against the whole address list. */
  lemma PoolOrderExtends(addresses: seq<string>, before: seq<Proxy>)
    requires |addresses| > 0
    requires forall a :: a in addresses[..|addresses| - 1] <==> a in Addresses(before)
    requires forall i, j :: 0 <= i < j < |before| ==>
               FirstIndex(addresses[..|addresses| - 1], before[i].address) < FirstIndex(addresses[..|addresses| - 1], before[j].address)
    ensures forall k :: 0 <= k < |before| ==> FirstIndex(addresses, before[k].address) < |addresses| - 1
    ensures forall i, j :: 0 <= i < j < |before| ==>
              FirstIndex(addresses, before[i].address) < FirstIndex(addresses, before[j].address)
  {
    var n := |addresses| - 1;
    forall k | 0 <= k < |before|
      ensures FirstIndex(addresses, before[k].address) == FirstIndex(addresses[..n], before[k].address)
      ensures FirstIndex(addresses[..n], before[k].address) < n
    {
      PrefixMember(addresses, n, before, k);
    }
  }

  lemma PrefixMember(addresses: seq<string>, n: nat, before: seq<Proxy>, k: nat)
    requires n <= |addresses|
    requires forall a :: a in addresses[..n] <==> a in Addresses(before)
    requires k < |before|
    ensures FirstIndex(addresses, before[k].address) == FirstIndex(addresses[..n], before[k].address) < n
  {
    var a := before[k].address;
    assert Addresses(before)[k] == a;
    assert a in addresses[..n];
    FirstIndexInPrefix(addresses, n, a);
  }

  /** `active_proxies`: the positions, in pool order, of the active proxies. */
  function ActiveSlots(pool: seq<Proxy>): (slots: seq<nat>)
    ensures forall k :: 0 <= k < |slots| ==> slots[k] < |pool| && pool[slots[k]].active
    ensures forall i :: 0 <= i < |pool| && pool[i].active ==> i in slots
    ensures forall k, l :: 0 <= k < l < |slots| ==> slots[k] < slots[l]
  {
    if pool == [] then []
    else
      var n := |pool| - 1;
      var before := ActiveSlots(pool[..n]);
      if pool[n].active then before + [n] else before
  }

  /** The snapshot depends on the active flags alone. */
  lemma {:induction false} SameActivitySameSlots(p: seq<Proxy>, q: seq<Proxy>)
    requires |p| == |q|
    requires forall i :: 0 <= i < |p| ==> p[i].active == q[i].active
    ensures ActiveSlots(p) == ActiveSlots(q)
    decreases |p|
  {
    if p != [] {
      SameActivitySameSlots(p[..|p| - 1], q[..|q| - 1]);
    }
  }

  // ---------------------------------------------------------------------------
  // One round

  /** Number of queue positions the first `k` proxies of a snapshot cover
      when the queue is long enough: thirty each. */
  function Span(k: nat): nat {
    k * MaxConcurrentRequestsPerProxy
  }

  /** Where the chunk of the `k`-th proxy of the snapshot starts. */
  function Offset(queue: seq<string>, k: nat): nat {
    Min(Span(k), |queue|)
  }

  /** The loop over the snapshot: each of the `n` proxies in turn takes the
      first thirty items left in the queue (fewer, possibly none, when the
      queue runs short). Returns the chunks and what is left. */
  function Partition(queue: seq<string>, n: nat): (r: (seq<seq<string>>, seq<string>))
    ensures |r.0| == n
    decreases n
  {
    if n == 0 then ([], queue)
    else
      var take := Min(MaxConcurrentRequestsPerProxy, |queue|);
      var tail := Partition(queue[take..], n - 1);
      ([queue[..take]] + tail.0, tail.1)
  }

  function Flatten(chunks: seq<seq<string>>): seq<string> {
    if chunks == [] then [] else chunks[0] + Flatten(chunks[1..])
  }

  lemma OffsetAfterFirstChunk(queue: seq<string>, k: nat)
    ensures Offset(queue, k + 1) == Min(MaxConcurrentRequestsPerProxy, |queue|) + Offset(queue[Min(MaxConcurrentRequestsPerProxy, |queue|)..], k)
  {
  }

  lemma SliceOfSuffix(s: seq<string>, d: nat, i: nat, j: nat, a: nat, b: nat)
    requires d <= |s| && i <= j <= |s| - d && a == d + i && b == d + j
    ensures s[d..][i..j] == s[a..b]
  {
  }

  /** Proxy `k` of a snapshot of `n` gets the slice of the queue from its
      offset to the next one. */
  lemma {:induction false} PartitionChunk(queue: seq<string>, n: nat, k: nat)
    requires k < n
    ensures Partition(queue, n).0[k] == queue[Offset(queue, k)..Offset(queue, k + 1)]
    decreases k
  {
    var take := Min(MaxConcurrentRequestsPerProxy, |queue|);
    OffsetAfterFirstChunk(queue, k);
    if k == 0 {
      assert Partition(queue, n).0[0] == queue[..take];
    } else {
      var tail := queue[take..];
      PartitionChunk(tail, n - 1, k - 1);
      OffsetAfterFirstChunk(queue, k - 1);
      assert Partition(queue, n).0[k] == Partition(tail, n - 1).0[k - 1];
      SliceOfSuffix(queue, take, Offset(tail, k - 1), Offset(tail, k), Offset(queue, k), Offset(queue, k + 1));
    }
  }

  /** What the snapshot leaves in the queue starts at offset `n`. */
  lemma {:induction false} PartitionRest(queue: seq<string>, n: nat)
    ensures Partition(queue, n).1 == queue[Offset(queue, n)..]
    decreases n
  {
    if n > 0 {
      var take := Min(MaxConcurrentRequestsPerProxy, |queue|);
      PartitionRest(queue[take..], n - 1);
      OffsetAfterFirstChunk(queue, n - 1);
    }
  }

  /** The chunks, in order, followed by what is left, are the queue. */
  lemma {:induction false} PartitionCoversQueue(queue: seq<string>, n: nat)
    ensures Flatten(Partition(queue, n).0) + Partition(queue, n).1 == queue
    ensures Flatten(Partition(queue, n).0) == queue[..Offset(queue, n)]
    decreases n
  {
    if n > 0 {
      var take := Min(MaxConcurrentRequestsPerProxy, |queue|);
      PartitionCoversQueue(queue[take..], n - 1);
      OffsetAfterFirstChunk(queue, n - 1);
      var chunks := Partition(queue, n).0;
      assert chunks[0] == queue[..take];
      assert chunks[1..] == Partition(queue[take..], n - 1).0;
      assert queue == queue[..take] + queue[take..];
    }
  }

  /** One fetch task: the pool position of the proxy and the item. */
  datatype Task = Task(slot: nat, item: string)

  function Items(tasks: seq<Task>): (items: seq<string>)
    ensures |items| == |tasks|
    ensures forall k :: 0 <= k < |tasks| ==> items[k] == tasks[k].item
  {
    seq(|tasks|, k requires 0 <= k < |tasks| => tasks[k].item)
  }

  /** The tasks of one proxy, one per item of its chunk, in chunk order. */
  function ChunkTasks(slot: nat, chunk: seq<string>): (tasks: seq<Task>)
    ensures Items(tasks) == chunk
    ensures forall k :: 0 <= k < |tasks| ==> tasks[k].slot == slot
  {
    seq(|chunk|, k requires 0 <= k < |chunk| => Task(slot, chunk[k]))
  }

  /** Task creation across the snapshot: chunk `k` goes to `slots[k]`. */
  function Tasks(slots: seq<nat>, chunks: seq<seq<string>>): (tasks: seq<Task>)
    requires |slots| == |chunks|
    ensures Items(tasks) == Flatten(chunks)
    ensures forall k :: 0 <= k < |tasks| ==> tasks[k].slot in slots
  {
    if chunks == [] then []
    else
      var head := ChunkTasks(slots[0], chunks[0]);
      var tail := Tasks(slots[1..], chunks[1..]);
      assert Items(head + tail) == Items(head) + Items(tail);
      assert forall k :: 0 <= k < |tail| ==> tail[k].slot in slots;
      head + tail
  }

  /** The tasks of chunk `k` sit where chunk `k` starts in the flattened
      chunks, and they are exactly that chunk's items bound to `slots[k]`:
      each proxy of the snapshot fetches the chunk it took. */
  lemma {:induction false} TasksOfChunk(slots: seq<nat>, chunks: seq<seq<string>>, k: nat)
    requires |slots| == |chunks| && k < |chunks|
    ensures var start := |Flatten(chunks[..k])|;
            && start + |chunks[k]| <= |Tasks(slots, chunks)|
            && Tasks(slots, chunks)[start..start + |chunks[k]|] == ChunkTasks(slots[k], chunks[k])
    decreases k
  {
    var head := ChunkTasks(slots[0], chunks[0]);
    var tail := Tasks(slots[1..], chunks[1..]);
    assert Tasks(slots, chunks) == head + tail;
    if k == 0 {
      assert chunks[..0] == [];
      SliceAfter([], head + tail, 0, |head|);
      SliceBefore(head, tail);
    } else {
      TasksOfChunk(slots[1..], chunks[1..], k - 1);
      assert slots[1..][k - 1] == slots[k] && chunks[1..][k - 1] == chunks[k];
      FlattenPrefix(chunks, k);
      var start := |Flatten(chunks[1..][..k - 1])|;
      assert |head| == |chunks[0]|;
      var at := |Flatten(chunks[..k])|;
      assert at == |head| + start;
      ShiftedSlice(Tasks(slots, chunks), head, tail, start, at, |chunks[k]|, ChunkTasks(slots[k], chunks[k]));
    }
  }

  lemma ShiftedSlice<T>(all: seq<T>, head: seq<T>, tail: seq<T>, start: nat, at: nat, len: nat, part: seq<T>)
    requires all == head + tail && start + len <= |tail| && at == |head| + start
    requires tail[start..start + len] == part
    ensures at + len <= |all|
    ensures all[at..at + len] == part
  {
    SliceAfter(head, tail, start, start + len);
  }

  /** The chunks before `k` flatten to the first chunk followed by the
      chunks between it and `k`. */
  lemma FlattenPrefix(chunks: seq<seq<string>>, k: nat)
    requires 0 < k <= |chunks|
    ensures Flatten(chunks[..k]) == chunks[0] + Flatten(chunks[1..][..k - 1])
  {
    var before := chunks[1..][..k - 1];
    assert chunks[..k] == [chunks[0]] + before;
    assert ([chunks[0]] + before)[1..] == before;
  }

  lemma SliceBefore<T>(a: seq<T>, b: seq<T>)
    ensures (a + b)[..|a|] == a
  {
  }

  lemma SliceAfter<T>(a: seq<T>, b: seq<T>, i: nat, j: nat)
    requires i <= j <= |b|
    ensures (a + b)[|a| + i..|a| + j] == b[i..j]
  {
  }

  function RecordItems(records: seq<Record>): (items: seq<string>)
    ensures |items| == |records|
    ensures forall k :: 0 <= k < |records| ==> items[k] == records[k].item
  {
    seq(|records|, k requires 0 <= k < |records| => records[k].item)
  }

  predicate SlotsIn(tasks: seq<Task>, n: nat) {
    forall k :: 0 <= k < |tasks| ==> tasks[k].slot < n
  }

  datatype Executed = Executed(results: seq<Outcome>, pool: seq<Proxy>, session: Session, attempted: set<string>, output: seq<Record>)

  /** `asyncio.gather` over the round's tasks, each run to completion in
      creation order. */
  function Execute(tasks: seq<Task>, pool: seq<Proxy>, session: Session, attempted: set<string>, output: seq<Record>): (e: Executed)
    requires SlotsIn(tasks, |pool|)
    ensures |e.results| == |tasks|
    decreases |tasks|
  {
    if tasks == [] then
      Executed([], pool, session, attempted, output)
    else
      var t := tasks[0];
      var f := Fetch(pool[t.slot], session, t.item, attempted);
      var rest := Execute(tasks[1..], pool[t.slot := f.proxy], f.session, f.attempted, output + f.written);
      Executed([f.outcome] + rest.results, rest.pool, rest.session, rest.attempted, rest.output)
  }

  /** Running a round's tasks keeps the pool's addresses and never brings a
      proxy back to life. */
  lemma {:induction false} ExecuteKeepsPool(tasks: seq<Task>, pool: seq<Proxy>, session: Session, attempted: set<string>, output: seq<Record>)
    requires SlotsIn(tasks, |pool|)
    ensures var e := Execute(tasks, pool, session, attempted, output);
            && Addresses(e.pool) == Addresses(pool)
            && (forall i :: 0 <= i < |pool| && e.pool[i].active ==> pool[i].active)
    decreases |tasks|
  {
    if tasks != [] {
      var t := tasks[0];
      var f := Fetch(pool[t.slot], session, t.item, attempted);
      var after := pool[t.slot := f.proxy];
      assert Addresses(after) == Addresses(pool);
      ExecuteKeepsPool(tasks[1..], after, f.session, f.attempted, output + f.written);
    }
  }

  /** Every item of the round ends up attempted, whatever its outcome. */
  lemma {:induction false} ExecuteMarksAttempted(tasks: seq<Task>, pool: seq<Proxy>, session: Session, attempted: set<string>, output: seq<Record>)
    requires SlotsIn(tasks, |pool|)
    ensures Execute(tasks, pool, session, attempted, output).attempted == attempted + Elems(Items(tasks))
    decreases |tasks|
  {
    if tasks != [] {
      var t := tasks[0];
      var f := Fetch(pool[t.slot], session, t.item, attempted);
      ExecuteMarksAttempted(tasks[1..], pool[t.slot := f.proxy], f.session, f.attempted, output + f.written);
      assert Items(tasks) == [t.item] + Items(tasks[1..]);
      assert Elems(Items(tasks)) == {t.item} + Elems(Items(tasks[1..]));
    }
  }

  /** The round's tasks only move endpoint positions, and no task raises
      `NoAvailableProxies`. */
  lemma {:induction false} ExecuteKeepsSession(tasks: seq<Task>, pool: seq<Proxy>, session: Session, attempted: set<string>, output: seq<Record>)
    requires SlotsIn(tasks, |pool|)
    ensures var e := Execute(tasks, pool, session, attempted, output);
            && e.session.Keys == session.Keys
            && (forall a :: a in session ==> e.session[a].replies == session[a].replies)
            && (forall k :: 0 <= k < |tasks| && e.results[k].Raised? ==> e.results[k].error != NoAvailableProxies)
    decreases |tasks|
  {
    if tasks != [] {
      var t := tasks[0];
      var f := Fetch(pool[t.slot], session, t.item, attempted);
      var after := pool[t.slot := f.proxy];
      ExecuteKeepsSession(tasks[1..], after, f.session, f.attempted, output + f.written);
      var e := Execute(tasks, pool, session, attempted, output);
      assert forall k :: 1 <= k < |tasks| ==> e.results[k] == Execute(tasks[1..], after, f.session, f.attempted, output + f.written).results[k - 1];
    }
  }

  /** The records a round writes are for items nobody had attempted before,
      all taken from the round's tasks, one record per item. */
  lemma {:induction false} ExecuteRecords(tasks: seq<Task>, pool: seq<Proxy>, session: Session, attempted: set<string>, output: seq<Record>)
    requires SlotsIn(tasks, |pool|)
    ensures var e := Execute(tasks, pool, session, attempted, output);
            && output <= e.output
            && (forall k :: |output| <= k < |e.output| ==> e.output[k].item !in attempted && e.output[k].item in Items(tasks))
            && Distinct(RecordItems(e.output[|output|..]))
    decreases |tasks|
  {
    if tasks != [] {
      var t := tasks[0];
      var f := Fetch(pool[t.slot], session, t.item, attempted);
      var after := pool[t.slot := f.proxy];
      ExecuteRecords(tasks[1..], after, f.session, f.attempted, output + f.written);
      var rest := Execute(tasks[1..], after, f.session, f.attempted, output + f.written);
      assert forall x :: x in Items(tasks[1..]) ==> x in Items(tasks);
      NewRecordsDistinct(output, f.written, rest.output, t.item, f.attempted);
    }
  }

  /** One proxy's chunk run as a round's tasks takes the same steps as that
      proxy fetching the chunk's items one after the other, so what
      `Proxies.FetchEach` promises, the retirement threshold among it, holds
      for the proxy's part of a round. */
  lemma {:induction false} ExecuteChunkIsFetchEach(slot: nat, chunk: seq<string>, pool: seq<Proxy>, session: Session, attempted: set<string>, output: seq<Record>)
    requires slot < |pool|
    ensures SlotsIn(ChunkTasks(slot, chunk), |pool|)
    ensures var e := Execute(ChunkTasks(slot, chunk), pool, session, attempted, output);
            var s := FetchEach(pool[slot], session, chunk, attempted);
            && e.results == s.outcomes
            && e.pool == pool[slot := s.proxy]
            && e.session == s.session
            && e.attempted == s.attempted
            && e.output == output + s.written
    decreases |chunk|
  {
    var tasks := ChunkTasks(slot, chunk);
    if chunk == [] {
      assert pool[slot := pool[slot]] == pool;
    } else {
      ChunkTasksCons(slot, chunk);
      var f := Fetch(pool[slot], session, chunk[0], attempted);
      var after := pool[slot := f.proxy];
      ExecuteChunkIsFetchEach(slot, chunk[1..], after, f.session, f.attempted, output + f.written);
      var rest := FetchEach(f.proxy, f.session, chunk[1..], f.attempted);
      UpdateTwice(pool, slot, f.proxy, rest.proxy);
      AppendAssociates(output, f.written, rest.written);
    }
  }

  lemma UpdateTwice<T>(s: seq<T>, i: nat, a: T, b: T)
    requires i < |s|
    ensures s[i := a][i := b] == s[i := b]
  {
  }

  lemma AppendAssociates<T>(a: seq<T>, b: seq<T>, c: seq<T>)
    ensures a + b + c == a + (b + c)
  {
  }

  lemma ChunkTasksCons(slot: nat, chunk: seq<string>)
    requires chunk != []
    ensures ChunkTasks(slot, chunk) == [Task(slot, chunk[0])] + ChunkTasks(slot, chunk[1..])
  {
    var tasks := ChunkTasks(slot, chunk);
    var later := ChunkTasks(slot, chunk[1..]);
    assert Items(tasks)[0] == chunk[0];
    assert forall j :: 0 <= j < |later| ==> Items(later)[j] == Items(tasks)[j + 1];
  }

  lemma NewRecordsDistinct(output: seq<Record>, written: seq<Record>, final: seq<Record>, item: string, attempted: set<string>)
    requires |written| <= 1 && (forall k :: 0 <= k < |written| ==> written[k].item == item)
    requires item in attempted
    requires output + written <= final
    requires forall k :: |output + written| <= k < |final| ==> final[k].item !in attempted
    requires Distinct(RecordItems(final[|output + written|..]))
    ensures Distinct(RecordItems(final[|output|..]))
  {
    var all := RecordItems(final[|output|..]);
    forall i, j | 0 <= i < j < |all|
      ensures all[i] != all[j]
    {
      if i < |written| {
        assert all[i] == item;
        assert all[j] == final[|output| + j].item;
      } else {
        assert all[i] == RecordItems(final[|output + written|..])[i - |written|];
        assert all[j] == RecordItems(final[|output + written|..])[j - |written|];
      }
    }
  }

  datatype Requeued = Requeued(queue: seq<string>) | Reraised(error: Error)

  /** The items of `chunk` whose position-paired result is False, in order,
      looking no further than the shorter of the two lists. */
  function PairedFailures(results: seq<Outcome>, chunk: seq<string>): (failed: seq<string>)
    ensures |failed| <= Min(|results|, |chunk|)
    ensures forall x :: x in failed ==> x in chunk
    decreases |chunk|
  {
    if results == [] || chunk == [] then []
    else (if results[0] == Returned(false) then [chunk[0]] else []) + PairedFailures(results[1..], chunk[1..])
  }

  /** The requeue loop, `for task, input_string in zip(tasks, chunk)`: a
      result that is an exception is raised again, which ends the loop; a
      False result pushes its paired item onto the front of the queue. */
  function Requeue(results: seq<Outcome>, chunk: seq<string>, queue: seq<string>): Requeued
    decreases |chunk|
  {
    if results == [] || chunk == [] then
      Requeued(queue)
    else
      match results[0]
      case Raised(error) => Reraised(error)
      case Returned(success) => Requeue(results[1..], chunk[1..], if success then queue else [chunk[0]] + queue)
  }

  /** With no exception among the paired results, the queue gains the paired
      items whose result is False, in reverse order, in front of what it held. */
  lemma {:induction false} RequeuePushesFailures(results: seq<Outcome>, chunk: seq<string>, queue: seq<string>)
    requires forall i :: 0 <= i < Min(|results|, |chunk|) ==> !results[i].Raised?
    ensures Requeue(results, chunk, queue) == Requeued(Reverse(PairedFailures(results, chunk)) + queue)
    decreases |chunk|
  {
    if results != [] && chunk != [] {
      assert !results[0].Raised?;
      assert forall i :: 0 <= i < Min(|results[1..]|, |chunk[1..]|) ==> results[1..][i] == results[i + 1];
      var pushed := if results[0].success then queue else [chunk[0]] + queue;
      RequeuePushesFailures(results[1..], chunk[1..], pushed);
      var rest := PairedFailures(results[1..], chunk[1..]);
      if !results[0].success {
        assert PairedFailures(results, chunk) == [chunk[0]] + rest;
        assert ([chunk[0]] + rest)[1..] == rest;
        assert Reverse([chunk[0]] + rest) == Reverse(rest) + [chunk[0]];
      } else {
        assert PairedFailures(results, chunk) == rest;
      }
    }
  }

  /** Otherwise the first exception among the paired results is the one raised. */
  lemma {:induction false} RequeueReraisesFirst(results: seq<Outcome>, chunk: seq<string>, queue: seq<string>, i: nat)
    requires i < Min(|results|, |chunk|) && results[i].Raised?
    requires forall j :: 0 <= j < i ==> !results[j].Raised?
    ensures Requeue(results, chunk, queue) == Reraised(results[i].error)
    decreases i
  {
    if i > 0 {
      assert !results[0].Raised?;
      assert forall j :: 0 <= j < i - 1 ==> results[1..][j] == results[j + 1];
      var pushed := if results[0].success then queue else [chunk[0]] + queue;
      RequeueReraisesFirst(results[1..], chunk[1..], pushed, i - 1);
    }
  }

  /** A result past the paired ones never raises: the loop stops at the
      shorter list, so the exceptions of the other tasks are swallowed. */
  lemma {:induction false} RequeueRaisesIffPairedException(results: seq<Outcome>, chunk: seq<string>, queue: seq<string>)
    ensures Requeue(results, chunk, queue).Reraised? <==> exists i :: 0 <= i < Min(|results|, |chunk|) && results[i].Raised?
    decreases |chunk|
  {
    if results != [] && chunk != [] && !results[0].Raised? {
      var pushed := if results[0].success then queue else [chunk[0]] + queue;
      RequeueRaisesIffPairedException(results[1..], chunk[1..], pushed);
      if exists i :: 0 <= i < Min(|results|, |chunk|) && results[i].Raised? {
        var i :| 0 <= i < Min(|results|, |chunk|) && results[i].Raised?;
        assert results[1..][i - 1] == results[i];
      }
      if exists i :: 0 <= i < Min(|results[1..]|, |chunk[1..]|) && results[1..][i].Raised? {
        var i :| 0 <= i < Min(|results[1..]|, |chunk[1..]|) && results[1..][i].Raised?;
        assert results[i + 1].Raised?;
      }
    }
  }

  /** The manager's state between rounds: the queue, the pool, the HTTP
      world, the items attempted so far in this job, and the output file. */
  datatype State = State(queue: seq<string>, pool: seq<Proxy>, session: Session, attempted: set<string>, output: seq<Record>)

  datatype Step = Continue(next: State) | Abort(error: Error, output: seq<Record>)

  /** How many items a round with `n` active proxies takes off the queue. */
  function Taken(queue: seq<string>, n: nat): nat {
    Offset(queue, n)
  }

  /** The chunk of the last proxy in the snapshot, the one the requeue loop
      pairs with the results. */
  function LastChunk(st: State): seq<string>
    requires ActiveSlots(st.pool) != []
  {
    var n := |ActiveSlots(st.pool)|;
    Partition(st.queue, n).0[n - 1]
  }

  function RoundTasks(st: State): (tasks: seq<Task>)
    requires ActiveSlots(st.pool) != []
    ensures SlotsIn(tasks, |st.pool|)
  {
    var slots := ActiveSlots(st.pool);
    Tasks(slots, Partition(st.queue, |slots|).0)
  }

  /** The outcomes of all tasks of a round, with the state they leave. */
  function Batch(st: State): Executed
    requires ActiveSlots(st.pool) != []
  {
    Execute(RoundTasks(st), st.pool, st.session, st.attempted, st.output)
  }

  /** What is left of the queue once every proxy of the snapshot has its chunk. */
  function Rest(st: State): seq<string>
    requires ActiveSlots(st.pool) != []
  {
    Partition(st.queue, |ActiveSlots(st.pool)|).1
  }

  /** One iteration of the `while input_strings` loop. */
  function Round(st: State): (r: Step)
    requires st.queue != []
    ensures ActiveSlots(st.pool) == [] ==> r == Abort(NoAvailableProxies, st.output)
    ensures r.Continue? ==> |r.next.queue| <= |st.queue|
  {
    if ActiveSlots(st.pool) == [] then
      Abort(NoAvailableProxies, st.output)
    else
      var e := Batch(st);
      match Requeue(e.results, LastChunk(st), Rest(st))
      case Reraised(error) =>
        Abort(error, e.output)
      case Requeued(queue) =>
        RequeueGrowth(e.results, LastChunk(st), Rest(st));
        ChunkShape(st);
        Continue(State(queue, e.pool, e.session, e.attempted, e.output))
  }

  /** Where the last chunk and the rest sit in the queue. */
  lemma ChunkShape(st: State)
    requires ActiveSlots(st.pool) != []
    ensures var n := |ActiveSlots(st.pool)|;
            && LastChunk(st) == st.queue[Offset(st.queue, n - 1)..Offset(st.queue, n)]
            && Rest(st) == st.queue[Offset(st.queue, n)..]
            && Items(RoundTasks(st)) == st.queue[..Offset(st.queue, n)]
            && |Batch(st).results| == Offset(st.queue, n)
  {
    var n := |ActiveSlots(st.pool)|;
    PartitionChunk(st.queue, n, n - 1);
    PartitionRest(st.queue, n);
    PartitionCoversQueue(st.queue, n);
    assert Offset(st.queue, n - 1) <= Offset(st.queue, n);
  }

  /** The first `k` chunks of a snapshot of `n` are those of a snapshot of `k`. */
  lemma {:induction false} PartitionPrefix(queue: seq<string>, n: nat, k: nat)
    requires k <= n
    ensures Partition(queue, n).0[..k] == Partition(queue, k).0
    decreases k
  {
    if k > 0 {
      var take := Min(MaxConcurrentRequestsPerProxy, |queue|);
      PartitionPrefix(queue[take..], n - 1, k - 1);
      assert Partition(queue, n).0[..k] == [queue[..take]] + Partition(queue[take..], n - 1).0[..k - 1];
    }
  }

  /** The `k`-th proxy of the snapshot fetches exactly the items of its own
      chunk: the tasks between offsets `k` and `k + 1` are that stretch of the
      queue bound to the proxy's pool slot. */
  lemma RoundTaskBinding(st: State, k: nat)
    requires k < |ActiveSlots(st.pool)|
    ensures Offset(st.queue, k) <= Offset(st.queue, k + 1) <= |RoundTasks(st)|
    ensures RoundTasks(st)[Offset(st.queue, k)..Offset(st.queue, k + 1)]
              == ChunkTasks(ActiveSlots(st.pool)[k], st.queue[Offset(st.queue, k)..Offset(st.queue, k + 1)])
  {
    var slots := ActiveSlots(st.pool);
    var n := |slots|;
    var chunks := Partition(st.queue, n).0;
    TasksOfChunk(slots, chunks, k);
    PartitionPrefix(st.queue, n, k);
    PartitionCoversQueue(st.queue, k);
    PartitionChunk(st.queue, n, k);
  }

  /** Pointwise: every task at a queue position taken by the `k`-th proxy of
      the snapshot is that position's item bound to the proxy's pool slot. */
  lemma RoundTaskSlot(st: State, k: nat, i: nat)
    requires k < |ActiveSlots(st.pool)|
    requires Offset(st.queue, k) <= i < Offset(st.queue, k + 1)
    ensures i < |RoundTasks(st)| && i < |st.queue|
    ensures RoundTasks(st)[i] == Task(ActiveSlots(st.pool)[k], st.queue[i])
  {
    RoundTaskBinding(st, k);
    ChunkTaskAt(RoundTasks(st), st.queue, Offset(st.queue, k), Offset(st.queue, k + 1), ActiveSlots(st.pool)[k], i);
  }

  lemma ChunkTaskAt(tasks: seq<Task>, queue: seq<string>, a: nat, b: nat, slot: nat, i: nat)
    requires a <= i < b <= |tasks| && b <= |queue|
    requires tasks[a..b] == ChunkTasks(slot, queue[a..b])
    ensures tasks[i] == Task(slot, queue[i])
  {
    var chunk := ChunkTasks(slot, queue[a..b]);
    assert tasks[i] == chunk[i - a];
    assert Items(chunk)[i - a] == queue[i];
  }

  /** Requeueing adds at most one item per paired result. */
  lemma {:induction false} RequeueGrowth(results: seq<Outcome>, chunk: seq<string>, queue: seq<string>)
    ensures Requeue(results, chunk, queue).Requeued? ==> |Requeue(results, chunk, queue).queue| <= |queue| + |chunk|
    ensures Requeue(results, chunk, queue).Requeued? ==>
              forall x :: x in Requeue(results, chunk, queue).queue ==> x in queue || x in chunk
    decreases |chunk|
  {
    if results != [] && chunk != [] && results[0].Returned? {
      var pushed := if results[0].success then queue else [chunk[0]] + queue;
      RequeueGrowth(results[1..], chunk[1..], pushed);
    }
  }

  /** The exception a requeue raises is the exception of one of the paired tasks. */
  lemma {:induction false} RequeueErrorFromResults(results: seq<Outcome>, chunk: seq<string>, queue: seq<string>)
    ensures Requeue(results, chunk, queue).Reraised? ==>
              exists i :: 0 <= i < |results| && results[i] == Raised(Requeue(results, chunk, queue).error)
    decreases |chunk|
  {
    if results != [] && chunk != [] && results[0].Returned? {
      var pushed := if results[0].success then queue else [chunk[0]] + queue;
      RequeueErrorFromResults(results[1..], chunk[1..], pushed);
      if Requeue(results, chunk, queue).Reraised? {
        var i :| 0 <= i < |results[1..]| && results[1..][i] == Raised(Requeue(results, chunk, queue).error);
        assert results[i + 1] == results[1..][i];
      }
    }
  }

  /** The requeue step exactly as written: a round aborts exactly when one of
      the first `|last chunk|` task results is an exception, and otherwise the
      new queue is the last chunk's items whose position-paired task returned
      False, reversed, followed by the items no proxy took. */
  lemma RoundRequeue(st: State)
    requires st.queue != [] && ActiveSlots(st.pool) != []
    ensures |LastChunk(st)| <= |Batch(st).results|
    ensures Round(st).Abort? <==> exists i :: 0 <= i < |LastChunk(st)| && Batch(st).results[i].Raised?
    ensures Round(st).Continue? ==>
              Round(st).next.queue == Reverse(PairedFailures(Batch(st).results, LastChunk(st))) + st.queue[Taken(st.queue, |ActiveSlots(st.pool)|)..]
  {
    var e := Batch(st);
    var last := LastChunk(st);
    ChunkShape(st);
    assert |last| <= |e.results|;
    assert Min(|e.results|, |last|) == |last|;
    RequeueRaisesIffPairedException(e.results, last, Rest(st));
    if Round(st).Continue? {
      RequeuePushesFailures(e.results, last, Rest(st));
    }
  }

  /** A round that aborts has only appended to the output, and it aborts
      with `NoAvailableProxies` only when the snapshot is empty. */
  lemma RoundAbortFrame(st: State)
    requires st.queue != []
    ensures Round(st).Abort? ==> st.output <= Round(st).output
    ensures Round(st).Abort? && Round(st).error == NoAvailableProxies ==> ActiveSlots(st.pool) == []
  {
    if ActiveSlots(st.pool) != [] {
      var tasks := RoundTasks(st);
      var e := Batch(st);
      ExecuteRecords(tasks, st.pool, st.session, st.attempted, st.output);
      ExecuteKeepsSession(tasks, st.pool, st.session, st.attempted, st.output);
      RequeueErrorFromResults(e.results, LastChunk(st), Rest(st));
    }
  }

  /** A round that completes marks every item the proxies took as attempted,
      keeps the pool's addresses, brings no proxy back to life, only appends
      to the output, and leaves the endpoints' scripts alone. */
  lemma RoundFrame(st: State)
    requires st.queue != []
    ensures Round(st).Continue? ==>
              var next := Round(st).next;
              && ActiveSlots(st.pool) != []
              && next.attempted == st.attempted + Elems(st.queue[..Taken(st.queue, |ActiveSlots(st.pool)|)])
              && Addresses(next.pool) == Addresses(st.pool)
              && (forall i :: 0 <= i < |st.pool| && next.pool[i].active ==> st.pool[i].active)
              && st.output <= next.output
              && next.session.Keys == st.session.Keys
              && (forall a :: a in st.session ==> next.session[a].replies == st.session[a].replies)
  {
    if ActiveSlots(st.pool) != [] {
      var tasks := RoundTasks(st);
      ChunkShape(st);
      ExecuteKeepsPool(tasks, st.pool, st.session, st.attempted, st.output);
      ExecuteMarksAttempted(tasks, st.pool, st.session, st.attempted, st.output);
      ExecuteKeepsSession(tasks, st.pool, st.session, st.attempted, st.output);
      ExecuteRecords(tasks, st.pool, st.session, st.attempted, st.output);
    }
  }

  /** A round never puts an item on the queue that was not there before. */
  lemma RoundQueueFromQueue(st: State)
    requires st.queue != []
    ensures Round(st).Continue? ==> forall x :: x in Round(st).next.queue ==> x in st.queue
  {
    if ActiveSlots(st.pool) != [] && Round(st).Continue? {
      var n := |ActiveSlots(st.pool)|;
      RoundRequeue(st);
      ChunkShape(st);
      var last := LastChunk(st);
      var failed := PairedFailures(Batch(st).results, last);
      RequeuedFromQueue(st.queue, Offset(st.queue, n - 1), Taken(st.queue, n), last, failed, Round(st).next.queue);
    }
  }

  /** Items pushed back from a slice, in front of a suffix, all come from
      the queue. */
  lemma RequeuedFromQueue(queue: seq<string>, start: nat, taken: nat, chunk: seq<string>, failed: seq<string>, next: seq<string>)
    requires start <= taken <= |queue| && chunk == queue[start..taken]
    requires forall x :: x in failed ==> x in chunk
    requires next == Reverse(failed) + queue[taken..]
    ensures forall x :: x in next ==> x in queue
  {
    forall x | x in next
      ensures x in queue
    {
      if x in Reverse(failed) {
        ReverseElems(failed, x);
        SliceMember(queue, start, taken, x);
      } else {
        SliceMember(queue, taken, |queue|, x);
      }
    }
  }

  lemma SliceMember(s: seq<string>, a: nat, b: nat, x: string)
    requires a <= b <= |s| && x in s[a..b]
    ensures x in s
  {
    var k :| 0 <= k < b - a && s[a..b][k] == x;
    assert s[a + k] == x;
  }

  lemma ReverseElems<T>(s: seq<T>, x: T)
    ensures x in Reverse(s) <==> x in s
  {
    if s != [] {
      ReverseElems(s[1..], x);
      assert s == [s[0]] + s[1..];
    }
  }

  // ---------------------------------------------------------------------------
  // The loop

  datatype Run = Finished(final: State) | Failed(error: Error, output: seq<Record>) | OutOfFuel(last: State)

  /** What the output file holds when the run stops, however it stops. */
  function Written(r: Run): seq<Record> {
    match r
    case Finished(final) => final.output
    case Failed(_, output) => output
    case OutOfFuel(last) => last.output
  }

  /** The `while input_strings` loop, allowed at most `fuel` rounds. An empty
      queue runs no round and touches nothing; a non-empty queue with no
      active proxy fails with `NoAvailableProxies` before any request. */
  function Loop(st: State, fuel: nat): (r: Run)
    ensures st.queue == [] ==> r == Finished(st)
    ensures st.queue != [] && fuel > 0 && ActiveSlots(st.pool) == [] ==> r == Failed(NoAvailableProxies, st.output)
    ensures r.Finished? ==> r.final.queue == []
    ensures st.output <= Written(r)
    decreases fuel
  {
    if st.queue == [] then Finished(st)
    else if fuel == 0 then OutOfFuel(st)
    else
      RoundAbortFrame(st);
      RoundFrame(st);
      match Round(st)
      case Abort(error, output) => Failed(error, output)
      case Continue(next) => Loop(next, fuel - 1)
  }

  /** `distribute_requests`: the attempted set starts empty for each job. */
  function DistributeRequests(queue: seq<string>, pool: seq<Proxy>, session: Session, output: seq<Record>, fuel: nat): (r: Run)
    ensures queue == [] ==> r == Finished(State([], pool, session, {}, output))
    ensures queue != [] && fuel > 0 && ActiveSlots(pool) == [] ==> r == Failed(NoAvailableProxies, output)
    ensures output <= Written(r)
  {
    Loop(State(queue, pool, session, {}, output), fuel)
  }
}

=== FILE: scenarios.dfy ===
/**
 The scenarios of tests/test_main.py, stated as lemmas about the model: each
 test builds `MockProxy` objects, installs them as the manager's pool, and
 runs one job. Here each mock is replaced by a proxy with the mock's address,
 flag and count, and an endpoint scripted with the mock's codes at the mock's
 position; `Mock.MockAgreesWithProxy` shows that the two take the same step
 for one fetch, `Mock.MockServesLikeProxy` extends this to one proxy's
 chunk, and `SoleMockBatch` to a whole round of a pool of one mock. Two
 further scenarios show two of the ways the requeue step loses an item: it
 circulates for ever, or it is dropped.
 */
module Scenarios {
  import opened Upstream
  import opened Proxies
  import opened Mock
  import opened Manager
  import opened Guarantees

  const Proxy1: string := "http://mock.proxy1"
  const Proxy2: string := "http://mock.proxy2"

  lemma SessionOfOne(m: MockProxy)
    ensures MockSession([m]) == map[m.address := AsEndpoint(m)]
  {
    assert [m][..0] == [];
  }

  lemma SessionOfTwo(m1: MockProxy, m2: MockProxy)
    ensures MockSession([m1, m2]) == map[m1.address := AsEndpoint(m1), m2.address := AsEndpoint(m2)]
  {
    assert [m1, m2][..1] == [m1];
    SessionOfOne(m1);
  }

  /** A mock whose codes are all 200 stands for an endpoint that always
      answers 200. */
  lemma OkMockSession(m: MockProxy)
    requires m.sequence != [] && forall k :: 0 <= k < |m.sequence| ==> m.sequence[k] == 200
    ensures AlwaysOk(MockSession([m]))
  {
    SessionOfOne(m);
  }

  /** A pool of one active mock, with a short queue: the round's tasks are
      the mock fetching the queue's items in order, so the results, records
      and proxy state of the round are the mock's own. */
  lemma SoleMockBatch(m: MockProxy, st: State)
    requires Valid(m) && m.active
    requires st.pool == [AsProxy(m)] && |st.queue| <= MaxConcurrentRequestsPerProxy
    requires m.address in st.session
    requires st.session[m.address] == AsEndpoint(m)
    ensures ActiveSlots(st.pool) == [0]
    ensures var s := MockFetchEach(m, st.queue, st.attempted);
            var e := Batch(st);
            && e.results == s.outcomes
            && e.output == st.output + s.written
            && e.pool == [AsProxy(s.mock)]
  {
    assert ActiveSlots(st.pool) == [0];
    SoleProxyBatch(st);
    MockServesLikeProxy(m, st.session, st.queue, st.attempted);
  }

  /** An empty input queue: the job ends at once and writes nothing. */
  lemma EmptyInputWritesNothing(fuel: nat)
    ensures var m := NewMock(Proxy1, [200]);
            var r := DistributeRequests([], [AsProxy(m)], MockSession([m]), [], fuel);
            r.Finished? && r.final.output == []
  {
  }

  /** The only proxy is blocked: the job raises `NoAvailableProxiesError`
      before any request is sent. */
  lemma NoActiveProxies(item: string, fuel: nat)
    requires fuel > 0
    ensures var m := BlockMock(NewMock(Proxy1, [200]));
            DistributeRequests([item], [AsProxy(m)], MockSession([m]), [], fuel) == Failed(NoAvailableProxies, [])
  {
    var m := BlockMock(NewMock(Proxy1, [200]));
    assert ActiveSlots([AsProxy(m)]) == [];
  }

  /** One active mock whose codes are all 200 records every item of a queue
      of distinct items, in order. */
  lemma OkMockRecordsEveryItem(m: MockProxy, queue: seq<string>, fuel: nat)
    requires m.active && m.sequence != [] && forall k :: 0 <= k < |m.sequence| ==> m.sequence[k] == 200
    requires Distinct(queue) && fuel >= |queue|
    ensures var r := DistributeRequests(queue, [AsProxy(m)], MockSession([m]), [], fuel);
            r.Finished? && RecordItems(r.final.output) == queue
  {
    var pool := [AsProxy(m)];
    assert ActiveSlots(pool) == [0];
    OkMockSession(m);
    SessionOfOne(m);
    AlwaysOkRecordsEveryItem(queue, pool, MockSession([m]), [], fuel);
  }

  /** One proxy answering 200: one item, however long, is recorded once. */
  lemma RegularRequest(item: string, fuel: nat)
    requires fuel > 0
    ensures var m := NewMock(Proxy1, [200]);
            var r := DistributeRequests([item], [AsProxy(m)], MockSession([m]), [], fuel);
            r.Finished? && RecordItems(r.final.output) == [item]
  {
    OkMockRecordsEveryItem(NewMock(Proxy1, [200]), [item], fuel);
  }

  /** One proxy answering 200 three times: a single round writes one line per
      input line, in input order, and the job finishes. */
  lemma ReadWriteFromFiles(fuel: nat)
    requires fuel > 0
    ensures var m := NewMock(Proxy1, [200, 200, 200]);
            var queue := ["test_input1", "test_input2", "test_input3"];
            var r := DistributeRequests(queue, [AsProxy(m)], MockSession([m]), [], fuel);
            r.Finished? && RecordItems(r.final.output) == queue && |r.final.output| == |queue|
  {
    var m := NewMock(Proxy1, [200, 200, 200]);
    var queue := ["test_input1", "test_input2", "test_input3"];
    assert Distinct(queue) by {
      assert queue[0] != queue[1] && queue[0] != queue[2] && queue[1] != queue[2];
    }
    var pool := [AsProxy(m)];
    assert ActiveSlots(pool) == [0];
    OkMockSession(m);
    SessionOfOne(m);
    AlwaysOkOneRound(queue, pool, MockSession([m]), [], fuel);
  }

  /** Running a round's tasks is one fetch followed by the rest. */
  lemma ExecuteCons(t: Task, tasks: seq<Task>, pool: seq<Proxy>, session: Session, attempted: set<string>, output: seq<Record>)
    requires t.slot < |pool| && SlotsIn(tasks, |pool|)
    ensures SlotsIn([t] + tasks, |pool|)
    ensures var f := Fetch(pool[t.slot], session, t.item, attempted);
            var rest := Execute(tasks, pool[t.slot := f.proxy], f.session, f.attempted, output + f.written);
            Execute([t] + tasks, pool, session, attempted, output)
              == Executed([f.outcome] + rest.results, rest.pool, rest.session, rest.attempted, rest.output)
  {
    assert forall k :: 0 < k < |tasks| + 1 ==> ([t] + tasks)[k] == tasks[k - 1];
    assert ([t] + tasks)[0] == t;
    assert ([t] + tasks)[1..] == tasks;
  }

  /** The endpoint of the mock with codes 200, 400, 200 at a given position. */
  function Script400(position: nat): Session {
    map[Proxy1 := Endpoint(Scripted([200, 400, 200]), position)]
  }

  /** The endpoint scripted 200, 400, 200 answers its `position`-th code and
      moves on to the next position. */
  lemma Script400Answers(position: nat)
    requires position < 3
    ensures NextReply(Script400(position), Proxy1) == Response([200, 400, 200][position], MockInformation)
    ensures Send(Script400(position), Proxy1) == Script400((position + 1) % 3)
  {
    assert |Scripted([200, 400, 200])| == 3;
  }

  const Ok1: Record := Record("test_input1", MockInformation)
  const Ok3: Record := Record("test_input3", MockInformation)

  /** The third fetch of the 200, 400, 200 scenario writes its record. */
  lemma UnexpectedCodeThirdTask()
    ensures var p := Proxy(Proxy1, true, 0);
            Execute([Task(0, "test_input3")], [p], Script400(2), {"test_input1", "test_input2"}, [Ok1])
              == Executed([Returned(true)], [p], Script400(0), {"test_input1", "test_input2", "test_input3"}, [Ok1, Ok3])
  {
    var p := Proxy(Proxy1, true, 0);
    Script400Answers(2);
    assert Fetch(p, Script400(2), "test_input3", {"test_input1", "test_input2"})
        == Fetched(p, Script400(0), {"test_input1", "test_input2", "test_input3"}, [Ok3], Returned(true));
    assert [p][0 := p] == [p];
    ExecuteCons(Task(0, "test_input3"), [], [p], Script400(2), {"test_input1", "test_input2"}, [Ok1]);
    assert [Task(0, "test_input3")] + [] == [Task(0, "test_input3")];
    assert [Ok1] + [Ok3] == [Ok1, Ok3];
  }

  /** The second fetch raises for the 400 and writes nothing. */
  lemma UnexpectedCodeLastTwoTasks()
    ensures var p := Proxy(Proxy1, true, 0);
            Execute([Task(0, "test_input2"), Task(0, "test_input3")], [p], Script400(1), {"test_input1"}, [Ok1])
              == Executed([Raised(UnexpectedResponseCode(400)), Returned(true)], [p], Script400(0),
                          {"test_input1", "test_input2", "test_input3"}, [Ok1, Ok3])
  {
    var p := Proxy(Proxy1, true, 0);
    Script400Answers(1);
    assert Fetch(p, Script400(1), "test_input2", {"test_input1"})
        == Fetched(p, Script400(2), {"test_input1", "test_input2"}, [], Raised(UnexpectedResponseCode(400)));
    assert [p][0 := p] == [p];
    UnexpectedCodeThirdTask();
    ExecuteCons(Task(0, "test_input2"), [Task(0, "test_input3")], [p], Script400(1), {"test_input1"}, [Ok1]);
    assert [Task(0, "test_input2")] + [Task(0, "test_input3")] == [Task(0, "test_input2"), Task(0, "test_input3")];
    assert [Ok1] + [] == [Ok1];
  }

  /** The round of the 200, 400, 200 scenario: the three fetches run in
      order; the second raises and the other two each write a record. */
  lemma UnexpectedCodeBatch()
    ensures var p := Proxy(Proxy1, true, 0);
            var tasks := [Task(0, "test_input1"), Task(0, "test_input2"), Task(0, "test_input3")];
            Execute(tasks, [p], Script400(0), {}, [])
              == Executed([Returned(true), Raised(UnexpectedResponseCode(400)), Returned(true)], [p], Script400(0),
                          {"test_input1", "test_input2", "test_input3"}, [Ok1, Ok3])
  {
    var p := Proxy(Proxy1, true, 0);
    Script400Answers(0);
    assert Fetch(p, Script400(0), "test_input1", {}) == Fetched(p, Script400(1), {"test_input1"}, [Ok1], Returned(true)) by {
      assert {} + {"test_input1"} == {"test_input1"};
    }
    assert [p][0 := p] == [p];
    UnexpectedCodeLastTwoTasks();
    ExecuteCons(Task(0, "test_input1"), [Task(0, "test_input2"), Task(0, "test_input3")], [p], Script400(0), {}, []);
    assert [Task(0, "test_input1")] + [Task(0, "test_input2"), Task(0, "test_input3")]
        == [Task(0, "test_input1"), Task(0, "test_input2"), Task(0, "test_input3")];
    assert [] + [Ok1] == [Ok1];
  }

  /** A proxy whose codes run 200, 400, 200 with three items: the job raises
      `UnexpectedResponseCode` for the 400, after all three requests have been
      sent, so the first and third items are already in the output. */
  lemma UnexpectedCodeAbortsJob(fuel: nat)
    requires fuel > 0
    ensures var m := NewMock(Proxy1, [200, 400, 200]);
            var queue := ["test_input1", "test_input2", "test_input3"];
            DistributeRequests(queue, [AsProxy(m)], MockSession([m]), [], fuel)
              == Failed(UnexpectedResponseCode(400), [Record("test_input1", MockInformation), Record("test_input3", MockInformation)])
  {
    var m := NewMock(Proxy1, [200, 400, 200]);
    var queue := ["test_input1", "test_input2", "test_input3"];
    var pool := [AsProxy(m)];
    SessionOfOne(m);
    var st := State(queue, pool, Script400(0), {}, []);
    SoleProxyTakesQueue(st);
    assert ActiveSlots(pool) == [0];
    assert RoundTasks(st) == [Task(0, "test_input1"), Task(0, "test_input2"), Task(0, "test_input3")];
    UnexpectedCodeBatch();
    var e := Batch(st);
    RequeueReraisesFirst(e.results, queue, [], 1);
    assert Round(st) == Abort(UnexpectedResponseCode(400), e.output);
  }

  /** The round of the blocked-proxy scenario: the one task goes to the
      second proxy, which answers 200. */
  lemma PassedOverBatch(st: State, item: string)
    requires st.pool == [Proxy(Proxy1, false, 0), Proxy(Proxy2, true, 0)]
    requires st.queue == [item] && st.attempted == {} && st.output == []
    requires Proxy2 in st.session && NextReply(st.session, Proxy2) == Response(200, MockInformation)
    ensures ActiveSlots(st.pool) == [1]
    ensures Batch(st).results == [Returned(true)] && Batch(st).output == [Record(item, MockInformation)]
  {
    assert ActiveSlots(st.pool) == [1];
    SoleProxyTakesQueue(st);
    assert RoundTasks(st) == [Task(1, item)];
    ExecuteCons(Task(1, item), [], st.pool, st.session, {}, []);
    assert [Task(1, item)] + [] == [Task(1, item)];
  }

  /** The first proxy is blocked and the second answers 200: the blocked one
      is passed over and the item is recorded once, in one round. */
  lemma BlockedProxyIsPassedOver(item: string, fuel: nat)
    requires fuel > 0
    ensures var m1 := BlockMock(NewMock(Proxy1, [503]));
            var m2 := NewMock(Proxy2, [200]);
            var r := DistributeRequests([item], [AsProxy(m1), AsProxy(m2)], MockSession([m1, m2]), [], fuel);
            r.Finished? && r.final.output == [Record(item, MockInformation)]
  {
    var m1 := BlockMock(NewMock(Proxy1, [503]));
    var m2 := NewMock(Proxy2, [200]);
    var session := MockSession([m1, m2]);
    SessionOfTwo(m1, m2);
    var st := State([item], [AsProxy(m1), AsProxy(m2)], session, {}, []);
    assert NextReply(session, Proxy2) == Response(200, MockInformation);
    PassedOverRound(st, item);
    assert Loop(st, fuel) == Loop(Round(st).next, fuel - 1);
  }

  /** That round completes with an empty queue and the item recorded. */
  lemma PassedOverRound(st: State, item: string)
    requires st.pool == [Proxy(Proxy1, false, 0), Proxy(Proxy2, true, 0)]
    requires st.queue == [item] && st.attempted == {} && st.output == []
    requires Proxy2 in st.session && NextReply(st.session, Proxy2) == Response(200, MockInformation)
    ensures Round(st).Continue?
    ensures Round(st).next.queue == [] && Round(st).next.output == [Record(item, MockInformation)]
  {
    PassedOverBatch(st, item);
    SoleProxyTakesQueue(st);
    var e := Batch(st);
    RequeuePushesFailures(e.results, [item], []);
    NoFailuresNothingPaired(e.results, [item]);
    assert Round(st) == Continue(State([], e.pool, e.session, e.attempted, e.output));
  }

  /** The first round of the unavailable-proxy scenario: the one task gets a
      503, nothing is written, and the item goes back on the queue. */
  lemma UnavailableFirstRound(st: State, item: string)
    requires st.pool == [Proxy(Proxy1, true, 0)]
    requires st.queue == [item] && st.attempted == {} && st.output == []
    requires Proxy1 in st.session && NextReply(st.session, Proxy1) == Response(503, MockInformation)
    ensures Round(st).Continue?
    ensures Round(st).next.queue == [item] && Round(st).next.output == []
    ensures Round(st).next.pool == [Proxy(Proxy1, true, 1)] && Round(st).next.attempted == {item}
  {
    assert ActiveSlots(st.pool) == [0];
    SoleProxyTakesQueue(st);
    assert RoundTasks(st) == [Task(0, item)];
    ExecuteCons(Task(0, item), [], st.pool, st.session, {}, []);
    assert [Task(0, item)] + [] == [Task(0, item)];
    var e := Batch(st);
    assert e.results == [Returned(false)] && e.output == [] && e.attempted == {item};
    RequeuePushesFailures(e.results, [item], []);
    AllFailuresPaired(e.results, [item]);
    assert Reverse([item]) == [item];
    assert Round(st) == Continue(State([item], e.pool, e.session, e.attempted, e.output));
  }

  /** One proxy that always answers 503, one item: the first round sends the
      request and puts the item back; from then on the item is skipped as
      already attempted in every round. The job never finishes, writes
      nothing, and the proxy, with one 503 on record, is never retired. */
  lemma UnavailableItemCirculates(item: string, fuel: nat)
    ensures var m := NewMock(Proxy1, [503]);
            var r := DistributeRequests([item], [AsProxy(m)], MockSession([m]), [], fuel);
            && r.OutOfFuel? && r.last.queue == [item] && r.last.output == []
            && (fuel > 0 ==> r.last.pool == [Proxy(Proxy1, true, 1)])
  {
    var m := NewMock(Proxy1, [503]);
    var session := MockSession([m]);
    SessionOfOne(m);
    var st := State([item], [AsProxy(m)], session, {}, []);
    if fuel > 0 {
      assert NextReply(session, Proxy1) == Response(503, MockInformation);
      UnavailableFirstRound(st, item);
      var next := Round(st).next;
      assert ActiveSlots(next.pool) == [0];
      var f: nat := fuel - 1;
      LoopUnfolds(st, fuel);
      LoopKeepsQueueWhileCirculating(next, f);
    }
  }

  /** With two active proxies and one item, the first proxy gets the item and
      the second gets nothing. */
  lemma FirstOfTwoTakesItem(st: State, item: string)
    requires ActiveSlots(st.pool) == [0, 1] && st.queue == [item]
    ensures RoundTasks(st) == [Task(0, item)]
  {
    PartitionChunk([item], 2, 0);
    PartitionChunk([item], 2, 1);
    assert Offset([item], 0) == 0 && Offset([item], 1) == 1 && Offset([item], 2) == 1;
    assert [item][0..1] == [item] && [item][1..1] == [];
    assert Partition([item], 2).0[0] == [item];
    assert Partition([item], 2).0[1] == [];
    assert Partition([item], 2).0 == [[item], []];
    var chunks: seq<seq<string>> := [[item], []];
    var empty: seq<string> := [];
    assert chunks[1..] == [empty] && [empty][1..] == [];
    var slots: seq<nat> := [0, 1];
    assert slots[1..] == [1];
    assert Tasks([1], [empty]) == ChunkTasks(1, empty) + Tasks([], []);
    assert Tasks(slots, chunks) == ChunkTasks(0, [item]) + Tasks([1], [empty]);
    assert ChunkTasks(0, [item]) == [Task(0, item)];
  }

  /** The round of the dropped-failure scenario: the item goes to the first
      proxy, which answers 503, and the round ends with an empty queue. */
  lemma DroppedBatch(st: State, item: string)
    requires st.pool == [Proxy(Proxy1, true, 0), Proxy(Proxy2, true, 0)]
    requires st.queue == [item] && st.attempted == {} && st.output == []
    requires Proxy1 in st.session && NextReply(st.session, Proxy1) == Response(503, MockInformation)
    ensures Round(st).Continue? && Round(st).next.queue == [] && Round(st).next.output == []
  {
    assert ActiveSlots(st.pool) == [0, 1];
    FailuresOfEarlierProxiesAreDropped(st);
    FirstOfTwoTakesItem(st, item);
    assert [Task(0, item)] + [] == [Task(0, item)];
    ExecuteCons(Task(0, item), [], st.pool, st.session, {}, []);
  }

  /** The first proxy answers 503 and the second 200, one item: the item goes
      to the first proxy, the second proxy's chunk is empty, so the requeue
      loop pairs nothing and the 503 is forgotten. The job finishes in one
      round with an empty output: the item is lost rather than retried through
      the second proxy. */
  lemma FailedItemIsDropped(item: string, fuel: nat)
    requires fuel > 0
    ensures var m1 := NewMock(Proxy1, [503]);
            var m2 := NewMock(Proxy2, [200]);
            var r := DistributeRequests([item], [AsProxy(m1), AsProxy(m2)], MockSession([m1, m2]), [], fuel);
            r.Finished? && r.final.output == []
  {
    var m1 := NewMock(Proxy1, [503]);
    var m2 := NewMock(Proxy2, [200]);
    var session := MockSession([m1, m2]);
    SessionOfTwo(m1, m2);
    var st := State([item], [AsProxy(m1), AsProxy(m2)], session, {}, []);
    assert NextReply(session, Proxy1) == Response(503, MockInformation);
    DroppedBatch(st, item);
  }
}

=== FILE: text.dfy ===
/**
 This module models how the job reads its two line-oriented inputs: the item
 list and the proxy address list. Each line read from a file is stripped of
 surrounding white space, and lines that are blank after stripping are dropped.
 Reading the file and splitting it into lines is not modelled; the functions
 here start from the sequence of lines.
 */
module Text {

  /** The characters Python's `str.isspace` accepts, which `str.strip()` with no
      argument removes from both ends of a string. */
  predicate IsSpace(c: char) {
    var n := c as int;
    || (0x09 <= n <= 0x0d)
    || (0x1c <= n <= 0x20)
    || n == 0x85 || n == 0xa0 || n == 0x1680
    || (0x2000 <= n <= 0x200a)
    || n == 0x2028 || n == 0x2029 || n == 0x202f || n == 0x205f || n == 0x3000
  }

  predicate AllSpace(s: string) {
    forall k :: 0 <= k < |s| ==> IsSpace(s[k])
  }

  /** A string is stripped when it neither starts nor ends with white space. */
  predicate Stripped(s: string) {
    s == [] || (!IsSpace(s[0]) && !IsSpace(s[|s| - 1]))
  }

  /** Length of the longest all-space prefix of `s`. */
  function LeadingSpaces(s: string): (n: nat)
    ensures n <= |s|
    ensures AllSpace(s[..n])
    ensures n == |s| || !IsSpace(s[n])
  {
    if |s| > 0 && IsSpace(s[0]) then
      var m := LeadingSpaces(s[1..]);
      assert s[1..][..m] == s[1..m + 1];
      1 + m
    else
      0
  }

  /** Length of the longest all-space suffix of `s`. */
  function TrailingSpaces(s: string): (n: nat)
    ensures n <= |s|
    ensures AllSpace(s[|s| - n..])
    ensures n == |s| || !IsSpace(s[|s| - n - 1])
  {
    if |s| > 0 && IsSpace(s[|s| - 1]) then
      var m := TrailingSpaces(s[..|s| - 1]);
      assert s[..|s| - 1][|s| - 1 - m..] == s[|s| - 1 - m..|s| - 1];
      1 + m
    else
      0
  }

  /** `str.strip()`: the result is the slice of `s` left once the maximal
      white-space prefix and suffix are cut off. */
  function Strip(s: string): (r: string)
    ensures exists i, j :: 0 <= i <= j <= |s| && r == s[i..j] && AllSpace(s[..i]) && AllSpace(s[j..])
    ensures Stripped(r)
    ensures |r| <= |s|
  {
    var i := LeadingSpaces(s);
    var t := s[i..];
    var j := |t| - TrailingSpaces(t);
    assert s[i..][..j] == s[i..i + j];
    assert t[j..] == s[i + j..];
    assert j > 0 ==> !IsSpace(t[0]);
    t[..j]
  }

  /** Stripping a string twice is stripping it once. */
  lemma StripIdempotent(s: string)
    ensures Strip(Strip(s)) == Strip(s)
  {
    StrippedIsFixed(Strip(s));
  }

  lemma StrippedIsFixed(s: string)
    requires Stripped(s)
    ensures Strip(s) == s
  {
    assert LeadingSpaces(s) == 0;
    assert TrailingSpaces(s) == 0;
  }

  /** The item (or address) list built from the lines of a file: every line
      stripped, blank lines left out, file order kept. */
  function ParseLines(lines: seq<string>): (items: seq<string>)
    ensures |items| <= |lines|
    ensures forall k :: 0 <= k < |items| ==> items[k] != [] && Stripped(items[k])
    ensures forall x :: x in items <==> x != [] && exists l :: l in lines && Strip(l) == x
  {
    if lines == [] then []
    else
      var t := Strip(lines[0]);
      var rest := ParseLines(lines[1..]);
      assert forall l :: l in lines <==> l == lines[0] || l in lines[1..];
      if t == [] then rest else [t] + rest
  }

  /** Parsing distributes over concatenation of line lists, so the order of
      the lines is the order of the items. */
  lemma {:induction false} ParseLinesAppend(a: seq<string>, b: seq<string>)
    ensures ParseLines(a + b) == ParseLines(a) + ParseLines(b)
    decreases |a|
  {
    if a == [] {
      assert a + b == b;
    } else {
      assert (a + b)[1..] == a[1..] + b;
      assert (a + b)[0] == a[0];
      ParseLinesAppend(a[1..], b);
    }
  }

  /** Parsing already parsed items gives them back unchanged. */
  lemma {:induction false} ParseLinesIdempotent(lines: seq<string>)
    ensures ParseLines(ParseLines(lines)) == ParseLines(lines)
    decreases |lines|
  {
    if lines != [] {
      var t := Strip(lines[0]);
      ParseLinesIdempotent(lines[1..]);
      if t != [] {
        var items := ParseLines(lines);
        assert items == [t] + ParseLines(lines[1..]);
        StrippedIsFixed(t);
        assert items[1..] == ParseLines(lines[1..]);
      }
    }
  }
}

=== FILE: upstream.dfy ===
/**
 The HTTP world a proxy talks to, reduced to a deterministic oracle. Each proxy
 address names an endpoint that answers its n-th request with the n-th entry of
 a reply script, cycling when the script runs out. A `Session` threads the
 endpoints' request counters through a run the way the shared client session
 is threaded through every fetch.
 An endpoint's position is where in its script the next reply comes from. An address with no endpoint, or one with an
 empty script, cannot be reached: the request fails at the transport level.
 */
module Upstream {

  /** What one GET through a proxy yields: a status with the `information`
      field of the JSON body, or a transport failure (`aiohttp.ClientError`). */
  datatype Reply = Response(status: int, information: string) | ConnectionFailed

  datatype Endpoint = Endpoint(replies: seq<Reply>, position: nat)

  type Session = map<string, Endpoint>

  predicate Reachable(session: Session, address: string) {
    address in session && |session[address].replies| > 0
  }

  /** The reply the endpoint behind `address` gives next, without sending. */
  function NextReply(session: Session, address: string): Reply {
    if Reachable(session, address) then
      var e := session[address];
      e.replies[e.position % |e.replies|]
    else
      ConnectionFailed
  }

  /** The endpoint after answering one request: its script stays, and its
      position moves to the next reply, back to the first after the last. */
  function Advance(e: Endpoint): Endpoint
    requires |e.replies| > 0
  {
    e.(position := (e.position + 1) % |e.replies|)
  }

  /** Send one request through `address`: the endpoint's position moves on by
      one, cyclically, and every other endpoint is left alone. */
  function Send(session: Session, address: string): (s: Session)
    ensures s.Keys == session.Keys
    ensures forall a :: a in session ==> s[a].replies == session[a].replies
    ensures forall a :: a in session && a != address ==> s[a] == session[a]
    ensures Reachable(session, address) ==> s[address] == Advance(session[address])
    ensures !Reachable(session, address) ==> s == session
  {
    if Reachable(session, address) then
      session[address := Advance(session[address])]
    else
      session
  }

  /** Every endpoint answers every request with status 200. */
  predicate AlwaysOk(session: Session) {
    forall a :: a in session ==>
      |session[a].replies| > 0 &&
      forall k :: 0 <= k < |session[a].replies| ==> session[a].replies[k].Response? && session[a].replies[k].status == 200
  }

  /** The endpoint behind `address` answers every request with status 503. */
  predicate AlwaysUnavailable(session: Session, address: string) {
    && Reachable(session, address)
    && forall k :: 0 <= k < |session[address].replies| ==>
         session[address].replies[k].Response? && session[address].replies[k].status == 503
  }
}
